=== FILE: README.md ===
# Library borrow ledger — a Dafny model

This project models the borrow ledger and the copy counts of a small
library-management system. The system has two servers: a FastAPI service
(`server/app/...`) over the tables `users`, `books` and `borrow_records`,
and an older Django app (`books/...`) over its own book and borrow-record
tables and Django's built-in users. Both keep the same kinds of rows:
users, books and borrow records. The model uses one store for both. That
is a modelling choice: the cross-server lemmas (`Ledger.DuplicateLoanContrast`,
`Ledger.ReturnedRecordContrast`, `Ledger.SearchesAgree`,
`Ledger.UnderscoreSearchesDiffer`) compare the two servers' answers on
one hypothetical store. Both let a user
borrow a book, which takes one copy off the shelf and opens a borrow
record. Both let the user return the book, which closes the record and puts
the copy back. Both list a user's loans and search the catalogue. The
FastAPI service also has admin endpoints that create, replace and delete
books, toggle a user's admin flag and register admin users.

The store is one value, `Database.Store`: three sequences in insertion
order plus the next key of each table. `Database.Library` is the same
store held in a class whose fields the endpoint methods update in place.

Each endpoint that changes state has two parts:

- A pure step function (`BorrowEndpoints.BorrowStep`,
  `AdminEndpoints.UpdateBookStep`, …). It maps the store before the
  request to the response and the store after it. Its contract gives every
  error case with the exact condition that triggers it, the exact effect,
  and what stays unchanged.
- A method of the same endpoint (`BorrowEndpoints.BorrowBook`, …). It
  performs the same changes step by step on a `Library` and is proved to
  agree with the step function.

The module `Ledger` holds the laws that span several requests:

- copies are conserved;
- the copy-count invariant is kept;
- a borrow followed by its return is a round trip;
- a second return is idempotent;
- toggling the admin flag twice changes nothing;
- the two servers differ exactly where their code differs.

Timestamps are whole seconds supplied by the caller (`now`). The loan
period is 14 × 86400 seconds.

The invariant `Database.Accounted` states that every book has
0 ≤ available and available + unreturned loans = total. The source does
not enforce it. Create and update store `available_copies` and
`total_copies` as sent, even when available exceeds total or either is
negative, and return adds one copy without capping it at the total. The
model follows the code: the invariant is proved preserved by borrow,
return and delete, and by create and update given well-behaved counts.
`Ledger.UpdateBookAcceptsAnyCounts` shows an update that breaks it.

## Model

| member | source | states |
|---|---|---|
| Models.IsAvailable | server/app/db/models.py:31-32 | a book can be lent exactly when more than zero copies are on the shelf (the Django model's is_available, books/models.py:14-15, is the same) |
| Models.DueDate | server/app/db/models.py:47-50 | the due date is the borrow date plus 14 days, as in books/models.py:27-31 |
| Models.NewBook | server/app/db/models.py:26-27 | a book created without counts has 1 copy available of 1 total and is available (books/models.py:8-9 has the same defaults) |
| Models.NewUser | server/app/db/models.py:14-15 | a new user is active and not an admin, and keeps the given fields |
| Models.NewRecord | server/app/db/models.py:40-42 | a new record is borrowed now, not returned, with no return date, and is due 14 days later (books/models.py:20-22) |
| Database.FindBook | server/app/api/endpoints/borrow.py:30 | the lookup `filter(Book.id == id).first()`: the first row with that id, found exactly when some row has it (`HasBook`) |
| Database.FindUser | server/app/api/endpoints/admin.py:123 | the first user row with that id, or none exactly when there is none |
| Database.FindOwnRecord | server/app/api/endpoints/borrow.py:69-72 | the first record with that id AND the caller as owner; none exactly when the caller owns no record with that id |
| Database.First | server/app/api/endpoints/borrow.py:30 | the position of the first row satisfying the filter, as `.first()` returns it; none exactly when no row does |
| Database.HasActiveLoan | server/app/api/endpoints/borrow.py:38-44 | the duplicate-loan query: some record of this user and this book is not returned |
| Database.Lent | server/app/api/endpoints/admin.py:82-85 | one record's contribution to a book's open-loan count: 1 for an unreturned record of that book, else 0 |
| Database.ActiveCount | server/app/api/endpoints/admin.py:82-85 | the `count()` of unreturned records of a book, never more than the number of records |
| Database.ActiveLoanCounted | server/app/api/endpoints/borrow.py:38-44 | a user's open loan of a book makes that book's open-loan count positive, so it also blocks the book's deletion (admin.py:87-91) |
| Database.ActiveCountAppend | server/app/api/endpoints/borrow.py:50-57 | appending one record adds one to the unreturned-loan count of its book if it is unreturned, and changes no other book's count |
| Database.ActiveCountUpdate | server/app/api/endpoints/borrow.py:80-81 | rewriting one record changes the unreturned-loan count of a book only by that record's before and after contribution |
| Database.ActiveCountZero | server/app/api/endpoints/admin.py:82-87 | a book's count of unreturned loans is zero exactly when no unreturned record points at it |
| Database.SameKeysKeep | server/app/api/endpoints/admin.py:61-65 | rewriting book rows without changing their ids keeps key uniqueness and keeps every open loan pointing at an existing book |
| Database.LoansHaveBooksGrow | server/app/api/endpoints/admin.py:45 | adding a book never orphans an open loan |
| Database.AccountedBounds | server/app/db/models.py:26-27 | under the invariant every book has 0 ≤ available ≤ total, and available is total minus its open loans |
| Database.AvailableIffCopiesLeft | server/app/db/models.py:31-32 | under the invariant a book is available exactly when fewer of its copies are out than it has |
| Database.Library.constructor | server/app/db/models.py:7-42 | the empty store: no rows, every key counter at 1, integrity and invariant hold |
| Loans.OwnRecords | server/app/api/endpoints/borrow.py:18-19 | exactly the records of the given user, and no more records than the store holds |
| Loans.ActiveOwnRecords | books/views.py:13-16 | exactly the user's unreturned records, and no more records than the store holds |
| Loans.ComesBefore | server/app/api/endpoints/borrow.py:20 | the ORDER BY is_returned, borrow_date DESC relation: unreturned before returned, then later borrow date first (books/views.py:76 orders the same way) |
| Loans.LoanOrdered | server/app/api/endpoints/borrow.py:20 | every earlier record of a listing comes before every later one |
| Loans.ComesBeforeTotal | server/app/api/endpoints/borrow.py:20 | the listing order (unreturned first, then newest borrow date first) compares any two records |
| Loans.ComesBeforeTransitive | server/app/api/endpoints/borrow.py:20 | the listing order is transitive |
| Loans.Insert | server/app/api/endpoints/borrow.py:20 | inserting into an ordered listing keeps it ordered and adds exactly that record |
| Loans.SortLoans | server/app/api/endpoints/borrow.py:20 | the result is in listing order and is a permutation of the input |
| Loans.ActiveFirst | server/app/api/endpoints/borrow.py:20 | in an ordered listing no returned record precedes an unreturned one |
| Search.LikeAnyText | server/app/api/endpoints/books.py:24 | the LIKE pattern `%` matches every text |
| Search.LikePrefix | server/app/api/endpoints/books.py:24 | a wildcard-free text followed by `%` matches exactly the texts it begins |
| Search.LikeLeadingAny | server/app/api/endpoints/books.py:24 | a leading `%` matches when the rest of the pattern matches some suffix of the text |
| Search.LikeContains | server/app/api/endpoints/books.py:24-26 | for a wildcard-free query, `%query%` matches exactly the texts that contain the query |
| Search.ILikeContains | server/app/api/endpoints/books.py:24-26 | the same with ASCII case ignored on both sides, which is what ilike does |
| Search.FilterPattern | server/app/api/endpoints/books.py:22-28 | exactly the books whose title, author or genre matches the pattern, in store order |
| Search.FilterText | books/views.py:24-28 | exactly the books whose title, author or genre contains the query ignoring case, in store order |
| Search.FiltersAgree | books/views.py:23-28 | for a wildcard-free query the ilike filter and the icontains filter give the same sequence |
| Search.LikeMatch | server/app/api/endpoints/books.py:24-26 | SQL LIKE: `%` matches any run of characters, `_` any one, every other character itself |
| Search.ILike | server/app/api/endpoints/books.py:24-26 | ilike on SQLite: LIKE after ASCII lower-casing of both text and pattern |
| Search.ContainsIgnoringCase | books/views.py:25-27 | icontains: the query occurs in the text, ignoring ASCII case, with `%` and `_` taken literally |
| Search.MatchesPattern | server/app/api/endpoints/books.py:23-27 | the `or_` of the three ilike conditions over title, author and genre |
| Search.MatchesText | books/views.py:24-28 | the OR of the three icontains conditions over title, author and genre |
| BookEndpoints.GetBooks | server/app/api/endpoints/books.py:13-30 | an absent or empty query gives every book; otherwise exactly the books matching `%query%` in one of the three columns, in store order |
| BookEndpoints.SubsequenceOfItself | server/app/api/endpoints/books.py:30 | an unfiltered query keeps every row in order |
| BookEndpoints.GetBooksFindsSubstrings | server/app/api/endpoints/books.py:21-28 | for a non-empty wildcard-free query the search returns exactly the books with a column containing it, ignoring case |
| BookEndpoints.SearchTolkien | server/app/api/endpoints/books.py:19-30 | in any catalogue holding a book by J.R.R. Tolkien, searching "tolkien" returns that book and only books with a column containing "tolkien"; an empty search returns the whole catalogue |
| BookEndpoints.GetBook | server/app/api/endpoints/books.py:38-41 | the book with that id, or 404 "Book not found" exactly when none exists |
| BookEndpoints.CreateBookStep | server/app/api/endpoints/books.py:49-58 | always succeeds and needs no admin; appends one book whose five fields equal the request under the next book key, advances that key by one, and changes nothing else; integrity kept |
| BookEndpoints.CreateBook | server/app/api/endpoints/books.py:43-59 | the in-place insert agrees with the step and keeps integrity |
| BorrowEndpoints.BorrowStep | server/app/api/endpoints/borrow.py:24-61 | 404 when the book is missing, 400 when no copy is on the shelf, 400 when the caller already holds an open loan of it, each exactly under its condition and leaving the store as it was; success exactly when none holds, with one copy less of that book, one new open record of the caller under the next record key, and nothing else changed |
| BorrowEndpoints.ReturnStep | server/app/api/endpoints/borrow.py:63-89 | 404 exactly when the caller owns no record with that id (another user's record looks missing); 400 exactly when it is already returned; 500 exactly when it is open and its book row is gone; success exactly when it is open and its book exists, and then that record alone is marked returned at `now` with its due date kept, and its book alone gets one copy back; a failure changes nothing |
| BorrowEndpoints.GetBorrowedBooks | server/app/api/endpoints/borrow.py:13-22 | 500 exactly when one of the caller's records points at a book row that is gone, because the response model (server/app/schemas/borrow.py:24-26) needs the book; otherwise exactly the caller's records, as a permutation of them, unreturned first and newest first within each group |
| BorrowEndpoints.OwnRecordLacksBook | server/app/schemas/borrow.py:24-26 | some record of the user points at a book id no row has, so its `book` field cannot be filled |
| BorrowEndpoints.BorrowKeepsWellFormed | server/app/api/endpoints/borrow.py:50-59 | a borrow keeps keys unique and every open loan pointing at a book |
| BorrowEndpoints.ReturnKeepsWellFormed | server/app/api/endpoints/borrow.py:80-86 | a return keeps keys unique and every open loan pointing at a book |
| BorrowEndpoints.BorrowBook | server/app/api/endpoints/borrow.py:24-61 | the in-place borrow agrees with the step and keeps integrity |
| BorrowEndpoints.ReturnBook | server/app/api/endpoints/borrow.py:63-89 | the in-place return agrees with the step and keeps integrity |
| AdminEndpoints.AdminGate | server/app/api/endpoints/admin.py:15-21 | admits exactly admin callers; everyone else gets 403 "Not authorized to access admin resources" |
| AdminEndpoints.GetAllBooks | server/app/api/endpoints/admin.py:24-30 | the whole catalogue for an admin, 403 otherwise |
| AdminEndpoints.CreateBookStep | server/app/api/endpoints/admin.py:32-48 | a non-admin is refused with nothing changed; for an admin, the unchecked create of the catalogue endpoint, always appending one book |
| AdminEndpoints.UpdateBookStep | server/app/api/endpoints/admin.py:50-69 | 403 before anything, then 404 for a missing id with nothing changed; otherwise that row alone gets the request's five fields (id kept, counts unchecked), users and records untouched, integrity kept |
| AdminEndpoints.DeleteBookStep | server/app/api/endpoints/admin.py:71-95 | 403, then 404, then 400 exactly while an open loan points at the book; otherwise exactly that row is removed and its id no longer exists |
| AdminEndpoints.DeleteKeepsWellFormed | server/app/api/endpoints/admin.py:81-93 | a delete never orphans an open loan |
| AdminEndpoints.GetAllUsers | server/app/api/endpoints/admin.py:98-104 | every user for an admin, 403 otherwise |
| AdminEndpoints.GetUser | server/app/api/endpoints/admin.py:106-115 | 403 for a non-admin; for an admin the user with that id, or 404 exactly when none exists |
| AdminEndpoints.ToggleAdminStep | server/app/api/endpoints/admin.py:117-132 | 403, then 404 for a missing user; otherwise only that user's admin flag is negated |
| AdminEndpoints.UsernameTaken | server/app/api/endpoints/admin.py:141-142 | some user already has the username |
| AdminEndpoints.EmailTaken | server/app/api/endpoints/admin.py:146-147 | some user already has the email |
| AdminEndpoints.CreateAdminStep | server/app/api/endpoints/admin.py:135-163 | no admin gate; a taken username is refused first, then a taken email; otherwise one active admin user is appended under the next user key with the hashed password, that key advances by one, nothing else changes, and usernames and emails stay unique |
| AdminEndpoints.GetAllBorrows | server/app/api/endpoints/admin.py:166-172 | 403 for a non-admin; for an admin, 500 exactly when some record points at a book row that is gone (the response model needs it), otherwise every record |
| AdminEndpoints.SomeRecordLacksBook | server/app/schemas/borrow.py:24-26 | some record points at a book id no row has |
| AdminEndpoints.CreateBook | server/app/api/endpoints/admin.py:32-48 | the in-place create agrees with the step and keeps integrity |
| AdminEndpoints.UpdateBook | server/app/api/endpoints/admin.py:50-69 | the field-by-field in-place update agrees with the step and keeps integrity |
| AdminEndpoints.DeleteBook | server/app/api/endpoints/admin.py:71-95 | the in-place delete agrees with the step and keeps integrity |
| AdminEndpoints.ToggleAdminStatus | server/app/api/endpoints/admin.py:117-132 | the in-place flag flip agrees with the step and keeps integrity |
| AdminEndpoints.CreateAdminUser | server/app/api/endpoints/admin.py:135-163 | the in-place registration agrees with the step and keeps integrity |
| DjangoViews.Home | books/views.py:10-17 | nothing for an anonymous visitor; for a logged-in user exactly that user's unreturned records |
| DjangoViews.SearchBooks | books/views.py:19-34 | an empty query gives every book; otherwise exactly the books with a column containing the query literally, ignoring case, in store order |
| DjangoViews.BorrowStep | books/views.py:36-51 | 404 for a missing book; an unavailable book gives the error message and changes nothing; otherwise the whole new store: one copy less of that book, one new open record of the user under the next record key, that key advanced by one, nothing else changed, and no duplicate-loan check |
| DjangoViews.ReturnStep | books/views.py:53-68 | 404 unless the user owns the record; an already-returned record is a silent no-op; otherwise the whole new store: the record is saved as returned and its book gets one copy back, nothing else changed; if the book row is gone the record stays saved and the view fails |
| DjangoViews.ViewBorrowedBooks | books/views.py:70-87 | exactly the user's records as a permutation, unreturned first then newest first, and the flag is true exactly when one of them is unreturned |
| DjangoViews.BorrowKeepsWellFormed | books/views.py:40-46 | a borrow keeps keys unique and every open loan pointing at a book |
| DjangoViews.ReturnKeepsWellFormed | books/views.py:57-64 | a return keeps keys unique and every open loan pointing at a book |
| DjangoViews.BorrowBook | books/views.py:36-51 | the in-place view agrees with the step and keeps integrity |
| DjangoViews.ReturnBook | books/views.py:53-68 | the in-place view agrees with the step and keeps integrity |
| Ledger.HoldingsAfterBorrow | server/app/api/endpoints/borrow.py:50-55 | taking a copy off one book's shelf while opening a loan of it leaves every book's shelf-plus-loans total unchanged |
| Ledger.HoldingsAfterReturn | server/app/api/endpoints/borrow.py:80-84 | closing one loan while putting its copy back leaves every book's total unchanged |
| Ledger.AccountedFromHoldings | server/app/db/models.py:26-27 | unchanged totals, unchanged total copies and non-negative shelves give back the copy-count invariant |
| Ledger.BorrowConserves | server/app/api/endpoints/borrow.py:50-59 | an API borrow, successful or not, keeps every book's shelf-plus-loans total |
| Ledger.ReturnConserves | server/app/api/endpoints/borrow.py:80-84 | an API return, successful or not, keeps every book's shelf-plus-loans total |
| Ledger.BorrowKeepsAccounted | server/app/api/endpoints/borrow.py:34-55 | an API borrow keeps 0 ≤ available and available + open loans = total |
| Ledger.ReturnKeepsAccounted | server/app/api/endpoints/borrow.py:80-84 | an API return keeps the invariant, although it adds without a cap |
| Ledger.DjangoBorrowConserves | books/views.py:40-46 | a Django borrow keeps every book's total |
| Ledger.DjangoReturnConserves | books/views.py:57-64 | a Django return keeps every book's total |
| Ledger.DjangoBorrowKeepsAccounted | books/views.py:40-46 | a Django borrow keeps the invariant |
| Ledger.DjangoReturnKeepsAccounted | books/views.py:57-64 | a Django return keeps the invariant |
| Ledger.BorrowThenReturn | server/app/api/endpoints/borrow.py:50-84 | returning the record a borrow just made succeeds, restores every book row exactly, and leaves the ledger one returned record longer |
| Ledger.FindOwnAfterUpdate | server/app/api/endpoints/borrow.py:69-72 | rewriting the record the lookup found, keeping id and owner, leaves the lookup where it was |
| Ledger.ReturnTwiceFails | server/app/api/endpoints/borrow.py:77-78 | a second API return of the same record is refused with "Book already returned" and changes nothing |
| Ledger.DjangoReturnIdempotent | books/views.py:57-68 | a second Django return of the same record, at any time, leaves the store as the first left it |
| Ledger.DuplicateLoanContrast | server/app/api/endpoints/borrow.py:37-48 | with a copy available and an open loan of the book already held, the API server refuses with nothing changed while the Django view (books/views.py:40-46) appends a second open loan of the book by the caller beside the first |
| Ledger.ReturnedRecordContrast | server/app/api/endpoints/borrow.py:77-78 | for a record already returned, the API server answers 400 while the Django view (books/views.py:57) does nothing and reports no error |
| Ledger.ReturnNeverFailsInternally | server/app/api/endpoints/borrow.py:83-84 | in a store where every open loan has its book, the API return never reaches the failing book lookup |
| Ledger.ToggleTwiceIsIdentity | server/app/api/endpoints/admin.py:128 | toggling the same user's admin flag twice restores the store |
| Ledger.CreateBookKeepsAccounted | server/app/api/endpoints/admin.py:38-44 | a book created with all its copies on the shelf keeps the invariant; no loan can point at its fresh key |
| Ledger.UpdateBookKeepsAccounted | server/app/api/endpoints/admin.py:61-65 | an update keeps the invariant when the new counts agree with the loans out |
| Ledger.UpdateBookAcceptsAnyCounts | server/app/api/endpoints/admin.py:64-65 | an admin update with 2 available of 1 total succeeds and breaks the invariant |
| Ledger.DeleteBookKeepsAccounted | server/app/api/endpoints/admin.py:87-93 | a delete keeps the invariant for the books that remain |
| Ledger.LastCopyLendsOnce | server/app/api/endpoints/borrow.py:34-35 | with one copy left, the first of two borrows succeeds and the second is refused as unavailable with nothing changed |
| Ledger.TwoCopiesScenario | server/app/api/endpoints/borrow.py:24-89 | two copies: A and B borrow, C is refused, and A's return brings one copy back |
| Ledger.SearchesAgree | server/app/api/endpoints/books.py:21-28 | for a query without `%` or `_`, the API search and the Django search (books/views.py:23-28) return the same books in the same order |
| Ledger.DeleteBreaksListings | server/app/api/endpoints/admin.py:82-93 | deleting a book with no open loans but with a returned record succeeds, and afterwards the record owner's listing (borrow.py:13) and the admin listing (admin.py:166) both answer 500 |
| Ledger.UnderscoreSearchesDiffer | server/app/api/endpoints/books.py:24-26 | the query `_` is a wildcard under ilike and finds a book titled "a", which the Django search does not return |

## Left out

- Authentication, password checks and tokens are not modelled. The caller arrives as a `User` value, or as a Django user id, already authenticated and active.
- Password hashing comes from a module outside this model. It is the parameter `hash` of `AdminEndpoints.CreateAdminStep`, and nothing is assumed about it.
- The clock (`datetime.utcnow`, `timezone.now`) becomes the parameter `now`. Times are whole seconds; there are no time zones and no sub-second precision.
- Each request is one atomic step: database sessions, commits, refreshes and rollbacks are not modelled. In particular, the failed book lookup in the API return is modelled as rolling back. The race between two concurrent borrows of the last copy is not modelled either. `Ledger.LastCopyLendsOnce` covers the serialised case only.
- Row order follows insertion order. SQLite's ordering of rows that tie on the sort keys is not modelled.
- New keys come from per-table counters starting at 1. SQLite may reuse the key of the last row after it is deleted; that reuse is not modelled.
- Deleting a book in the API server removes the row only; its returned records keep the old book id. With the relationship at server/app/db/models.py:29 and no cascade, SQLAlchemy sets their `book_id` to null instead. That is not modelled. Either way those records have no book, so the listings that need one answer 500 (`Ledger.DeleteBreaksListings`).
- The two servers' separate tables are not modelled: both run over one store. Django's built-in user, which has no admin flag, is not modelled either; a Django user is its id.
- The Django foreign keys cascade on delete. The Django views never delete, so the cascade is not modelled.
- The FastAPI read endpoints need a logged-in user (`get_current_active_user`), and so does Django's `view_borrowed_books` (`login_required`, books/views.py:70). That check is part of authentication and is not modelled. Django's home and search pages (books/views.py:10-34) are open to anonymous visitors; `DjangoViews.Home` models the anonymous case.
- Django templates, redirects and the flash-message framework are left out. Only the text of each message is kept, as `DjangoViews.Flash`.
- The Django `register` view and the user creation form are not part of this model.
- Case folding covers ASCII letters only, as SQLite's LIKE and lower() do. Unicode case folding is not modelled.
- `Ledger.LastCopyLendsOnce`: it requires that the first borrower holds no open loan of the book. Without that, the first request is refused for the duplicate loan instead of succeeding.

=== FILE: admin_endpoints.dfy ===
/** The admin endpoints of the API server: catalogue and user management
    behind the admin gate, and the registration of admin users. */
module AdminEndpoints {
  import opened Models
  import opened Database
  import BookEndpoints
  import BorrowEndpoints

  const NotAuthorized := HttpError(403, "Not authorized to access admin resources")
  const UserNotFound := HttpError(404, "User not found")
  const HasActiveBorrows := HttpError(400, "Cannot delete book with active borrows")
  const UsernameRegistered := HttpError(400, "Username already registered")
  const EmailRegistered := HttpError(400, "Email already registered")

  /** The admin gate: only a caller with the admin flag gets through. */
  function AdminGate(caller: User): (r: Result<User>)
    ensures r.Ok? <==> caller.isAdmin
    ensures r.Ok? ==> r.value == caller
    ensures r.Err? ==> r.error == NotAuthorized
  {
    if caller.isAdmin then Ok(caller) else Err(NotAuthorized)
  }

  /** A refused caller gets 403 and the store stays as it was. */
  predicate Refused<T>(s: Store, r: Step<T>)
  {
    r == Step(s, Err(NotAuthorized))
  }

  function GetAllBooks(s: Store, caller: User): (r: Result<seq<Book>>)
    ensures r.Ok? <==> caller.isAdmin
    ensures r.Ok? ==> r.value == s.books
    ensures r.Err? ==> r.error == NotAuthorized
  {
    if !caller.isAdmin then Err(NotAuthorized) else Ok(s.books)
  }

  /** Creating a book as admin: the gate, then the same insertion as the
      open catalogue endpoint. */
  function CreateBookStep(s: Store, caller: User, input: BookInput): (r: Step<Book>)
    ensures !caller.isAdmin ==> Refused(s, r)
    ensures caller.isAdmin ==> r == BookEndpoints.CreateBookStep(s, input)
    ensures caller.isAdmin ==> r.result.Ok? && r.store.books == s.books + [r.result.value]
  {
    if !caller.isAdmin then Step(s, Err(NotAuthorized))
    else BookEndpoints.CreateBookStep(s, input)
  }

  /** Full replace of the five editable columns of one book. */
  function UpdateBookStep(s: Store, caller: User, id: int, input: BookInput): (r: Step<Book>)
    ensures !caller.isAdmin ==> Refused(s, r)
    ensures caller.isAdmin && !HasBook(s.books, id) ==> r == Step(s, Err(BookNotFound))
    ensures r.result.Ok? <==> caller.isAdmin && HasBook(s.books, id)
    ensures r.result.Ok? ==>
      && FindBook(s.books, id).Some?
      && var i := FindBook(s.books, id).value;
         && r.result.value == Book(id, input.title, input.author, input.genre,
                                   input.availableCopies, input.totalCopies)
         && r.store == s.(books := s.books[i := r.result.value])
    ensures WellFormed(s) ==> WellFormed(r.store)
  {
    if !caller.isAdmin then Step(s, Err(NotAuthorized))
    else match FindBook(s.books, id)
      case None => Step(s, Err(BookNotFound))
      case Some(i) =>
        var b := s.books[i].(title := input.title, author := input.author, genre := input.genre,
                             availableCopies := input.availableCopies, totalCopies := input.totalCopies);
        assert SameKeys(s.books, s.books[i := b]);
        SameKeysKeep(s.books, s.books[i := b], s.records, s.nextBookId);
        Step(s.(books := s.books[i := b]), Ok(b))
  }

  /** Deleting a book, refused while any unreturned record points at it. */
  function DeleteBookStep(s: Store, caller: User, id: int): (r: Step<Book>)
    ensures !caller.isAdmin ==> Refused(s, r)
    ensures caller.isAdmin && !HasBook(s.books, id) ==> r == Step(s, Err(BookNotFound))
    ensures caller.isAdmin && HasBook(s.books, id) && ActiveCount(s.records, id) > 0
        ==> r == Step(s, Err(HasActiveBorrows))
    ensures r.result.Ok? <==> caller.isAdmin && HasBook(s.books, id) && ActiveCount(s.records, id) == 0
    ensures r.result.Ok? ==>
      && FindBook(s.books, id).Some?
      && var i := FindBook(s.books, id).value;
         && r.result.value == s.books[i]
         && r.store == s.(books := s.books[..i] + s.books[i + 1..])
    ensures WellFormed(s) && r.result.Ok? ==> !HasBook(r.store.books, id)
  {
    if !caller.isAdmin then Step(s, Err(NotAuthorized))
    else match FindBook(s.books, id)
      case None => Step(s, Err(BookNotFound))
      case Some(i) =>
        if ActiveCount(s.records, id) > 0 then Step(s, Err(HasActiveBorrows))
        else Step(s.(books := s.books[..i] + s.books[i + 1..]), Ok(s.books[i]))
  }

  /** Deleting keeps the store's integrity: no unreturned record pointed at
      the removed book. */
  lemma DeleteKeepsWellFormed(s: Store, caller: User, id: int)
    requires WellFormed(s)
    ensures WellFormed(DeleteBookStep(s, caller, id).store)
  {
    var r := DeleteBookStep(s, caller, id);
    if r.result.Ok? {
      var i := FindBook(s.books, id).value;
      var rest := r.store.books;
      assert forall j :: 0 <= j < |rest| ==> rest[j] == s.books[if j < i then j else j + 1];
      ActiveCountZero(s.records, id);
      forall k | 0 <= k < |s.records| && IsActive(s.records[k]) ensures HasBook(rest, s.records[k].bookId) {
        assert Lent(s.records[k], id) == 0;
        var j :| 0 <= j < |s.books| && s.books[j].id == s.records[k].bookId;
        assert j != i;
        if j < i {
          assert rest[j] == s.books[j];
        } else {
          assert rest[j - 1] == s.books[j];
        }
      }
    }
  }

  function GetAllUsers(s: Store, caller: User): (r: Result<seq<User>>)
    ensures r.Ok? <==> caller.isAdmin
    ensures r.Ok? ==> r.value == s.users
    ensures r.Err? ==> r.error == NotAuthorized
  {
    if !caller.isAdmin then Err(NotAuthorized) else Ok(s.users)
  }

  function GetUser(s: Store, caller: User, id: int): (r: Result<User>)
    ensures !caller.isAdmin ==> r == Err(NotAuthorized)
    ensures caller.isAdmin ==> (r.Ok? <==> exists j | 0 <= j < |s.users| :: s.users[j].id == id)
    ensures caller.isAdmin && r.Err? ==> r.error == UserNotFound
    ensures r.Ok? ==> r.value in s.users && r.value.id == id
  {
    if !caller.isAdmin then Err(NotAuthorized)
    else match FindUser(s.users, id)
      case None => Err(UserNotFound)
      case Some(i) => Ok(s.users[i])
  }

  /** Flips the admin flag of one user and nothing else. */
  function ToggleAdminStep(s: Store, caller: User, id: int): (r: Step<User>)
    ensures !caller.isAdmin ==> Refused(s, r)
    ensures caller.isAdmin && FindUser(s.users, id).None? ==> r == Step(s, Err(UserNotFound))
    ensures r.result.Ok? <==> caller.isAdmin && FindUser(s.users, id).Some?
    ensures r.result.Ok? ==>
      && FindUser(s.users, id).Some?
      && var i := FindUser(s.users, id).value;
         && r.result.value == s.users[i].(isAdmin := !s.users[i].isAdmin)
         && r.store == s.(users := s.users[i := r.result.value])
    ensures WellFormed(s) ==> WellFormed(r.store)
  {
    if !caller.isAdmin then Step(s, Err(NotAuthorized))
    else match FindUser(s.users, id)
      case None => Step(s, Err(UserNotFound))
      case Some(i) =>
        var u := s.users[i].(isAdmin := !s.users[i].isAdmin);
        Step(s.(users := s.users[i := u]), Ok(u))
  }

  predicate UsernameTaken(users: seq<User>, username: string)
  {
    exists j | 0 <= j < |users| :: users[j].username == username
  }

  predicate EmailTaken(users: seq<User>, email: string)
  {
    exists j | 0 <= j < |users| :: users[j].email == email
  }

  /** Registers an admin user. This endpoint has no admin gate. The
      username is checked before the email; the password is stored as
      `hash` makes it. */
  function CreateAdminStep(s: Store, input: UserInput, hash: string -> string): (r: Step<User>)
    ensures UsernameTaken(s.users, input.username) ==> r == Step(s, Err(UsernameRegistered))
    ensures !UsernameTaken(s.users, input.username) && EmailTaken(s.users, input.email)
        ==> r == Step(s, Err(EmailRegistered))
    ensures r.result.Ok? <==> !UsernameTaken(s.users, input.username) && !EmailTaken(s.users, input.email)
    ensures r.result.Ok? ==>
      var u := r.result.value;
      && u.id == s.nextUserId
      && u.username == input.username && u.email == input.email
      && u.hashedPassword == hash(input.password)
      && u.isAdmin && u.isActive
      && r.store == s.(users := s.users + [u], nextUserId := s.nextUserId + 1)
    ensures WellFormed(s) ==> WellFormed(r.store)
  {
    if UsernameTaken(s.users, input.username) then Step(s, Err(UsernameRegistered))
    else if EmailTaken(s.users, input.email) then Step(s, Err(EmailRegistered))
    else
      var u := NewUser(s.nextUserId, input.username, input.email, hash(input.password)).(isAdmin := true);
      Step(s.(users := s.users + [u], nextUserId := s.nextUserId + 1), Ok(u))
  }

  /** Some record points at a book row that no longer exists. */
  predicate SomeRecordLacksBook(s: Store)
  {
    exists j | 0 <= j < |s.records| :: !HasBook(s.books, s.records[j].bookId)
  }

  /** Every record, each with its book; a record whose book row is gone
      fails the response and the request answers 500. */
  function GetAllBorrows(s: Store, caller: User): (r: Result<seq<BorrowRecord>>)
    ensures !caller.isAdmin ==> r == Err(NotAuthorized)
    ensures caller.isAdmin && SomeRecordLacksBook(s) ==> r == Err(BorrowEndpoints.InternalError)
    ensures r.Ok? <==> caller.isAdmin && !SomeRecordLacksBook(s)
    ensures r.Ok? ==> r.value == s.records
  {
    if !caller.isAdmin then Err(NotAuthorized)
    else if SomeRecordLacksBook(s) then Err(BorrowEndpoints.InternalError)
    else Ok(s.records)
  }

  method CreateBook(lib: Library, caller: User, input: BookInput) returns (r: Result<Book>)
    modifies lib
    ensures Step(lib.Snapshot(), r) == CreateBookStep(old(lib.Snapshot()), caller, input)
    ensures old(lib.Valid()) ==> lib.Valid()
  {
    if !caller.isAdmin {
      return Err(NotAuthorized);
    }
    var b := BookEndpoints.CreateBook(lib, input);
    r := Ok(b);
  }

  method UpdateBook(lib: Library, caller: User, id: int, input: BookInput) returns (r: Result<Book>)
    modifies lib
    ensures Step(lib.Snapshot(), r) == UpdateBookStep(old(lib.Snapshot()), caller, id, input)
    ensures old(lib.Valid()) ==> lib.Valid()
  {
    if !caller.isAdmin {
      return Err(NotAuthorized);
    }
    var found := FindBook(lib.books, id);
    if found.None? {
      return Err(BookNotFound);
    }
    var i := found.value;
    var b := lib.books[i];
    b := b.(title := input.title);
    b := b.(author := input.author);
    b := b.(genre := input.genre);
    b := b.(availableCopies := input.availableCopies);
    b := b.(totalCopies := input.totalCopies);
    lib.books := lib.books[i := b];
    r := Ok(b);
  }

  method DeleteBook(lib: Library, caller: User, id: int) returns (r: Result<Book>)
    modifies lib
    ensures Step(lib.Snapshot(), r) == DeleteBookStep(old(lib.Snapshot()), caller, id)
    ensures old(lib.Valid()) ==> lib.Valid()
  {
    if !caller.isAdmin {
      return Err(NotAuthorized);
    }
    var found := FindBook(lib.books, id);
    if found.None? {
      return Err(BookNotFound);
    }
    var i := found.value;
    if ActiveCount(lib.records, id) > 0 {
      return Err(HasActiveBorrows);
    }
    ghost var s := lib.Snapshot();
    r := Ok(lib.books[i]);
    lib.books := lib.books[..i] + lib.books[i + 1..];
    if old(lib.Valid()) {
      DeleteKeepsWellFormed(s, caller, id);
    }
  }

  method ToggleAdminStatus(lib: Library, caller: User, id: int) returns (r: Result<User>)
    modifies lib
    ensures Step(lib.Snapshot(), r) == ToggleAdminStep(old(lib.Snapshot()), caller, id)
    ensures old(lib.Valid()) ==> lib.Valid()
  {
    if !caller.isAdmin {
      return Err(NotAuthorized);
    }
    var found := FindUser(lib.users, id);
    if found.None? {
      return Err(UserNotFound);
    }
    var i := found.value;
    var u := lib.users[i].(isAdmin := !lib.users[i].isAdmin);
    lib.users := lib.users[i := u];
    r := Ok(u);
  }

  method CreateAdminUser(lib: Library, input: UserInput, hash: string -> string) returns (r: Result<User>)
    modifies lib
    ensures Step(lib.Snapshot(), r) == CreateAdminStep(old(lib.Snapshot()), input, hash)
    ensures old(lib.Valid()) ==> lib.Valid()
  {
    if UsernameTaken(lib.users, input.username) {
      return Err(UsernameRegistered);
    }
    if EmailTaken(lib.users, input.email) {
      return Err(EmailRegistered);
    }
    var u := NewUser(lib.nextUserId, input.username, input.email, hash(input.password)).(isAdmin := true);
    lib.users := lib.users + [u];
    lib.nextUserId := lib.nextUserId + 1;
    r := Ok(u);
  }
}

=== FILE: book_endpoints.dfy ===
/** The catalogue endpoints of the API server: search, look up and create
    books. Any authenticated active user may call them. */
module BookEndpoints {
  import opened Models
  import opened Database
  import opened Search

  /** The catalogue search. Without a query, or with an empty one, every
      book; otherwise the books whose title, author or genre matches
      `%query%` under ilike. Rows come in store order. */
  function GetBooks(s: Store, query: Option<string>): (r: seq<Book>)
    ensures query.None? || query.value == [] ==> r == s.books
    ensures query.Some? && query.value != [] ==>
      forall b :: b in r <==> b in s.books && MatchesPattern(b, "%" + query.value + "%")
    ensures IsSubsequence(r, s.books)
  {
    if query.None? || query.value == [] then
      assert IsSubsequence(s.books, s.books) by { SubsequenceOfItself(s.books); }
      s.books
    else FilterPattern(s.books, "%" + query.value + "%")
  }

  lemma {:induction false} SubsequenceOfItself<T>(s: seq<T>)
    ensures IsSubsequence(s, s)
  {
    if |s| > 0 {
      SubsequenceOfItself(s[1..]);
    }
  }

  /** For a non-empty query free of `%` and `_`, the search returns exactly
      the books with a column containing the query, ignoring ASCII case. */
  lemma GetBooksFindsSubstrings(s: Store, q: string)
    requires q != [] && WildcardFree(q)
    ensures forall b :: b in GetBooks(s, Some(q)) <==> b in s.books && MatchesText(b, q)
  {
    forall b | b in s.books
      ensures MatchesPattern(b, "%" + q + "%") <==> MatchesText(b, q)
    {
      ILikeContains(q, b.title);
      ILikeContains(q, b.author);
      ILikeContains(q, b.genre);
    }
  }

  /** Searching "tolkien" finds a book by J.R.R. Tolkien (The Hobbit, say)
      in any catalogue that holds it, and returns only books with a column
      containing "tolkien"; an empty search returns the whole catalogue. */
  lemma SearchTolkien(s: Store, hobbit: Book)
    requires hobbit in s.books
    requires hobbit.author == "J.R.R. Tolkien"
    ensures hobbit in GetBooks(s, Some("tolkien"))
    ensures forall b :: b in GetBooks(s, Some("tolkien")) ==> MatchesText(b, "tolkien")
    ensures GetBooks(s, Some("")) == s.books
  {
    var q := "tolkien";
    assert WildcardFree(q);
    assert LowerStr(q) == q;
    assert LowerStr(hobbit.author) == "j.r.r. tolkien";
    assert OccursAt(LowerStr(q), LowerStr(hobbit.author), 7);
    assert MatchesText(hobbit, q);
    GetBooksFindsSubstrings(s, q);
  }

  /** The book with this id, or not-found. */
  function GetBook(s: Store, id: int): (r: Result<Book>)
    ensures r.Ok? <==> HasBook(s.books, id)
    ensures r.Ok? ==> r.value in s.books && r.value.id == id
    ensures r.Err? ==> r.error == BookNotFound
  {
    match FindBook(s.books, id)
    case None => Err(BookNotFound)
    case Some(i) => Ok(s.books[i])
  }

  /** Adds one book carrying the request's five fields verbatim under the
      next key; the copy counts are not checked. */
  function CreateBookStep(s: Store, input: BookInput): (r: Step<Book>)
    ensures r.result.Ok?
    ensures var b := r.result.value;
      && b.title == input.title && b.author == input.author && b.genre == input.genre
      && b.availableCopies == input.availableCopies && b.totalCopies == input.totalCopies
      && b.id == s.nextBookId
      && r.store == s.(books := s.books + [b], nextBookId := s.nextBookId + 1)
    ensures WellFormed(s) ==> !HasBook(s.books, r.result.value.id) && WellFormed(r.store)
  {
    var b := Book(s.nextBookId, input.title, input.author, input.genre, input.availableCopies, input.totalCopies);
    assert WellFormed(s) ==> LoansHaveBooks(s.books + [b], s.records) by {
      if WellFormed(s) { LoansHaveBooksGrow(s.books, b, s.records); }
    }
    Step(s.(books := s.books + [b], nextBookId := s.nextBookId + 1), Ok(b))
  }

  method CreateBook(lib: Library, input: BookInput) returns (b: Book)
    modifies lib
    ensures Step(lib.Snapshot(), Ok(b)) == CreateBookStep(old(lib.Snapshot()), input)
    ensures old(lib.Valid()) ==> lib.Valid()
  {
    b := Book(lib.nextBookId, input.title, input.author, input.genre, input.availableCopies, input.totalCopies);
    lib.books := lib.books + [b];
    lib.nextBookId := lib.nextBookId + 1;
    assert Step(lib.Snapshot(), Ok(b)) == CreateBookStep(old(lib.Snapshot()), input);
  }
}

=== FILE: borrow_endpoints.dfy ===
/** The borrow endpoints of the API server: borrow a book, return a loan,
    and list the caller's loans. The caller is the authenticated active user
    the request carries; `now` is the server clock at the request. */
module BorrowEndpoints {
  import opened Models
  import opened Database
  import Loans

  const BookNotAvailable := HttpError(400, "Book is not available for borrowing")
  const AlreadyBorrowed := HttpError(400, "You already have a copy of this book borrowed")
  const RecordNotFound := HttpError(404, "Borrow record not found")
  const AlreadyReturned := HttpError(400, "Book already returned")
  /** The response when the handler itself fails (a loan whose book is gone). */
  const InternalError := HttpError(500, "Internal Server Error")

  /** The effect of a borrow request on the store. */
  function BorrowStep(s: Store, caller: User, bookId: int, now: int): (r: Step<BorrowRecord>)
    // a refused request changes nothing
    ensures r.result.Err? ==> r.store == s
    // the three refusals, each exactly when its condition is the first to hold
    ensures r.result == Err(BookNotFound) <==> !HasBook(s.books, bookId)
    ensures r.result == Err(BookNotAvailable)
        <==> FindBook(s.books, bookId).Some? && !IsAvailable(s.books[FindBook(s.books, bookId).value])
    ensures r.result == Err(AlreadyBorrowed)
        <==> && FindBook(s.books, bookId).Some? && IsAvailable(s.books[FindBook(s.books, bookId).value])
             && HasActiveLoan(s.records, caller.id, bookId)
    // and when none of them holds the borrow succeeds
    ensures r.result.Ok?
        <==> && FindBook(s.books, bookId).Some? && IsAvailable(s.books[FindBook(s.books, bookId).value])
             && !HasActiveLoan(s.records, caller.id, bookId)
    // a success takes one copy off the shelf and appends one active record of the caller
    ensures r.result.Ok? ==>
      && FindBook(s.books, bookId).Some?
      && var i := FindBook(s.books, bookId).value;
         var rec := r.result.value;
         && rec.userId == caller.id && rec.bookId == bookId
         && rec.borrowDate == now && IsActive(rec) && rec.returnDate == None
         && r.store.records == s.records + [rec]
         && |r.store.books| == |s.books|
         && r.store.books[i] == s.books[i].(availableCopies := s.books[i].availableCopies - 1)
         && (forall j :: 0 <= j < |s.books| && j != i ==> r.store.books[j] == s.books[j])
         && r.store.users == s.users
         && r.store.nextBookId == s.nextBookId && r.store.nextUserId == s.nextUserId
         && rec.id == s.nextRecordId && r.store.nextRecordId == s.nextRecordId + 1
    // the new record's key is fresh
    ensures WellFormed(s) && r.result.Ok? ==> forall j :: 0 <= j < |s.records| ==> s.records[j].id != r.result.value.id
  {
    match FindBook(s.books, bookId)
    case None => Step(s, Err(BookNotFound))
    case Some(i) =>
      if !IsAvailable(s.books[i]) then Step(s, Err(BookNotAvailable))
      else if HasActiveLoan(s.records, caller.id, bookId) then Step(s, Err(AlreadyBorrowed))
      else
        var rec := NewRecord(s.nextRecordId, caller.id, bookId, now);
        var book := s.books[i].(availableCopies := s.books[i].availableCopies - 1);
        Step(s.(books := s.books[i := book], records := s.records + [rec], nextRecordId := s.nextRecordId + 1),
             Ok(rec))
  }

  /** The effect of a return request on the store. */
  function ReturnStep(s: Store, caller: User, borrowId: int, now: int): (r: Step<BorrowRecord>)
    ensures r.result.Err? ==> r.store == s
    // records are looked up among the caller's own only
    ensures r.result == Err(RecordNotFound) <==> FindOwnRecord(s.records, borrowId, caller.id).None?
    ensures (forall j :: 0 <= j < |s.records| && s.records[j].id == borrowId ==> s.records[j].userId != caller.id)
        ==> r.result == Err(RecordNotFound)
    ensures r.result == Err(AlreadyReturned)
        <==> FindOwnRecord(s.records, borrowId, caller.id).Some?
             && s.records[FindOwnRecord(s.records, borrowId, caller.id).value].isReturned
    // an own unreturned record whose book row is gone makes the handler fail
    ensures r.result == Err(InternalError)
        <==> && FindOwnRecord(s.records, borrowId, caller.id).Some?
             && IsActive(s.records[FindOwnRecord(s.records, borrowId, caller.id).value])
             && !HasBook(s.books, s.records[FindOwnRecord(s.records, borrowId, caller.id).value].bookId)
    // otherwise an own unreturned record is returned
    ensures r.result.Ok?
        <==> && FindOwnRecord(s.records, borrowId, caller.id).Some?
             && IsActive(s.records[FindOwnRecord(s.records, borrowId, caller.id).value])
             && HasBook(s.books, s.records[FindOwnRecord(s.records, borrowId, caller.id).value].bookId)
    // a success marks the caller's record returned now and puts one copy back
    ensures r.result.Ok? ==>
      && FindOwnRecord(s.records, borrowId, caller.id).Some?
      && var k := FindOwnRecord(s.records, borrowId, caller.id).value;
         var old_ := s.records[k];
         && IsActive(old_)
         && FindBook(s.books, old_.bookId).Some?
         && var i := FindBook(s.books, old_.bookId).value;
            && r.result.value == old_.(isReturned := true, returnDate := Some(now))
            && DueDate(r.result.value) == DueDate(old_)
            && r.store.records == s.records[k := r.result.value]
            && |r.store.books| == |s.books|
            && r.store.books[i] == s.books[i].(availableCopies := s.books[i].availableCopies + 1)
            && (forall j :: 0 <= j < |s.books| && j != i ==> r.store.books[j] == s.books[j])
            && r.store.users == s.users
            && r.store.nextBookId == s.nextBookId && r.store.nextUserId == s.nextUserId
            && r.store.nextRecordId == s.nextRecordId
  {
    match FindOwnRecord(s.records, borrowId, caller.id)
    case None => Step(s, Err(RecordNotFound))
    case Some(k) =>
      var rec := s.records[k];
      if rec.isReturned then Step(s, Err(AlreadyReturned))
      else match FindBook(s.books, rec.bookId)
        // the handler dereferences a missing book and fails before committing
        case None => Step(s, Err(InternalError))
        case Some(i) =>
          var done := rec.(isReturned := true, returnDate := Some(now));
          var book := s.books[i].(availableCopies := s.books[i].availableCopies + 1);
          Step(s.(books := s.books[i := book], records := s.records[k := done]), Ok(done))
  }

  /** Some record of `userId` points at a book row that no longer exists. */
  predicate OwnRecordLacksBook(s: Store, userId: int)
  {
    exists j | 0 <= j < |s.records| :: s.records[j].userId == userId && !HasBook(s.books, s.records[j].bookId)
  }

  /** The caller's loans: unreturned before returned, newest first within
      each. Each listed record carries its book, so a record whose book row
      is gone fails the response and the request answers 500. */
  function GetBorrowedBooks(s: Store, caller: User): (r: Result<seq<BorrowRecord>>)
    ensures r.Err? <==> OwnRecordLacksBook(s, caller.id)
    ensures r.Err? ==> r.error == InternalError
    ensures r.Ok? ==> forall x :: x in r.value <==> x in s.records && x.userId == caller.id
    ensures r.Ok? ==> multiset(r.value) == multiset(Loans.OwnRecords(s.records, caller.id))
    ensures r.Ok? ==> Loans.LoanOrdered(r.value)
  {
    if OwnRecordLacksBook(s, caller.id) then Err(InternalError)
    else
      var own := Loans.OwnRecords(s.records, caller.id);
      var sorted := Loans.SortLoans(own);
      assert forall x :: x in sorted <==> x in multiset(sorted);
      assert forall x :: x in own <==> x in multiset(own);
      Ok(sorted)
  }

  lemma BorrowKeepsWellFormed(s: Store, caller: User, bookId: int, now: int)
    requires WellFormed(s)
    ensures WellFormed(BorrowStep(s, caller, bookId, now).store)
  {
    var r := BorrowStep(s, caller, bookId, now);
    if r.result.Ok? {
      var i := FindBook(s.books, bookId).value;
      SameKeysKeep(s.books, r.store.books, r.store.records, s.nextBookId);
      assert LoansHaveBooks(s.books, r.store.records) by {
        assert HasBook(s.books, bookId) by { assert s.books[i].id == bookId; }
        forall k | 0 <= k < |r.store.records| && IsActive(r.store.records[k])
          ensures HasBook(s.books, r.store.records[k].bookId)
        {
          if k < |s.records| { assert r.store.records[k] == s.records[k]; }
        }
      }
    }
  }

  lemma ReturnKeepsWellFormed(s: Store, caller: User, borrowId: int, now: int)
    requires WellFormed(s)
    ensures WellFormed(ReturnStep(s, caller, borrowId, now).store)
  {
    var r := ReturnStep(s, caller, borrowId, now);
    if r.result.Ok? {
      var k := FindOwnRecord(s.records, borrowId, caller.id).value;
      SameKeysKeep(s.books, r.store.books, r.store.records, s.nextBookId);
      assert LoansHaveBooks(s.books, r.store.records) by {
        forall j | 0 <= j < |r.store.records| && IsActive(r.store.records[j])
          ensures HasBook(s.books, r.store.records[j].bookId)
        {
          assert j != k;
        }
      }
    }
  }

  method BorrowBook(lib: Library, caller: User, bookId: int, now: int) returns (r: Result<BorrowRecord>)
    modifies lib
    ensures Step(lib.Snapshot(), r) == BorrowStep(old(lib.Snapshot()), caller, bookId, now)
    ensures old(lib.Valid()) ==> lib.Valid()
  {
    var found := FindBook(lib.books, bookId);
    if found.None? {
      return Err(BookNotFound);
    }
    var i := found.value;
    if !IsAvailable(lib.books[i]) {
      return Err(BookNotAvailable);
    }
    if HasActiveLoan(lib.records, caller.id, bookId) {
      return Err(AlreadyBorrowed);
    }
    var rec := NewRecord(lib.nextRecordId, caller.id, bookId, now);
    lib.books := lib.books[i := lib.books[i].(availableCopies := lib.books[i].availableCopies - 1)];
    lib.records := lib.records + [rec];
    lib.nextRecordId := lib.nextRecordId + 1;
    r := Ok(rec);
    if old(lib.Valid()) {
      BorrowKeepsWellFormed(old(lib.Snapshot()), caller, bookId, now);
    }
  }

  method ReturnBook(lib: Library, caller: User, borrowId: int, now: int) returns (r: Result<BorrowRecord>)
    modifies lib
    ensures Step(lib.Snapshot(), r) == ReturnStep(old(lib.Snapshot()), caller, borrowId, now)
    ensures old(lib.Valid()) ==> lib.Valid()
  {
    ghost var s := lib.Snapshot();
    var found := FindOwnRecord(lib.records, borrowId, caller.id);
    if found.None? {
      return Err(RecordNotFound);
    }
    var k := found.value;
    var rec := lib.records[k];
    if rec.isReturned {
      return Err(AlreadyReturned);
    }
    var book := FindBook(lib.books, rec.bookId);
    if book.None? {
      return Err(InternalError);
    }
    var i := book.value;
    var done := rec.(isReturned := true, returnDate := Some(now));
    lib.records := lib.records[k := done];
    lib.books := lib.books[i := lib.books[i].(availableCopies := lib.books[i].availableCopies + 1)];
    r := Ok(done);
    assert Step(lib.Snapshot(), r) == ReturnStep(s, caller, borrowId, now);
    if old(lib.Valid()) {
      ReturnKeepsWellFormed(s, caller, borrowId, now);
    }
  }
}

=== FILE: database.dfy ===
/** The store both servers work on: the books, users and borrow_records
    tables in row order, and the next primary key of each table. */
module Database {
  import opened Models

  /** A value snapshot of the whole store. Row order is the order the
      database returns rows in when a query has no ORDER BY. */
  datatype Store = Store(
    books: seq<Book>,
    users: seq<User>,
    records: seq<BorrowRecord>,
    nextBookId: int,
    nextUserId: int,
    nextRecordId: int)

  /** What one request does: the store afterwards and the response. */
  datatype Step<T> = Step(store: Store, result: Result<T>)

  /** The request body of a book create or update (all five fields). */
  datatype BookInput = BookInput(
    title: string,
    author: string,
    genre: string,
    availableCopies: int,
    totalCopies: int)

  /** The request body of a user registration. */
  datatype UserInput = UserInput(username: string, email: string, password: string)

  /** The position of the first element of `s` satisfying `p`, as `.first()` finds it. */
  function First<T>(s: seq<T>, p: T -> bool): (r: Option<nat>)
    ensures r.Some? ==> r.value < |s| && p(s[r.value])
    ensures r.Some? ==> forall j :: 0 <= j < r.value ==> !p(s[j])
    ensures r.None? <==> forall j :: 0 <= j < |s| ==> !p(s[j])
  {
    if |s| == 0 then None
    else if p(s[0]) then Some(0)
    else match First(s[1..], p)
      case None => None
      case Some(k) => Some(k + 1)
  }

  function FindBook(books: seq<Book>, id: int): (r: Option<nat>)
    ensures r.Some? ==> r.value < |books| && books[r.value].id == id
    ensures r.Some? ==> forall j :: 0 <= j < r.value ==> books[j].id != id
    ensures r.None? <==> forall j :: 0 <= j < |books| ==> books[j].id != id
    ensures r.Some? <==> HasBook(books, id)
  {
    First(books, (b: Book) => b.id == id)
  }

  function FindUser(users: seq<User>, id: int): (r: Option<nat>)
    ensures r.Some? ==> r.value < |users| && users[r.value].id == id
    ensures r.Some? ==> forall j :: 0 <= j < r.value ==> users[j].id != id
    ensures r.None? <==> forall j :: 0 <= j < |users| ==> users[j].id != id
  {
    First(users, (u: User) => u.id == id)
  }

  /** The record with this id among those owned by `userId`. */
  function FindOwnRecord(records: seq<BorrowRecord>, id: int, userId: int): (r: Option<nat>)
    ensures r.Some? ==> r.value < |records| && records[r.value].id == id && records[r.value].userId == userId
    ensures r.Some? ==> forall j :: 0 <= j < r.value ==> !(records[j].id == id && records[j].userId == userId)
    ensures r.None? <==> forall j :: 0 <= j < |records| ==> !(records[j].id == id && records[j].userId == userId)
  {
    First(records, (rec: BorrowRecord) => rec.id == id && rec.userId == userId)
  }

  /** Whether `userId` holds an unreturned record of `bookId`. */
  predicate HasActiveLoan(records: seq<BorrowRecord>, userId: int, bookId: int)
  {
    exists j | 0 <= j < |records| :: records[j].userId == userId && records[j].bookId == bookId && IsActive(records[j])
  }

  /** 1 when `r` is an unreturned loan of `bookId`, else 0. */
  function Lent(r: BorrowRecord, bookId: int): nat
  {
    if r.bookId == bookId && IsActive(r) then 1 else 0
  }

  /** The number of unreturned records of `bookId`: the copies out on loan. */
  function ActiveCount(records: seq<BorrowRecord>, bookId: int): (n: nat)
    ensures n <= |records|
  {
    if |records| == 0 then 0
    else ActiveCount(records[..|records| - 1], bookId) + Lent(records[|records| - 1], bookId)
  }

  lemma ActiveCountAppend(records: seq<BorrowRecord>, r: BorrowRecord, bookId: int)
    ensures ActiveCount(records + [r], bookId) == ActiveCount(records, bookId) + Lent(r, bookId)
  {
    assert (records + [r])[..|records|] == records;
  }

  lemma {:induction false} ActiveCountUpdate(records: seq<BorrowRecord>, k: nat, r: BorrowRecord, bookId: int)
    requires k < |records|
    ensures ActiveCount(records[k := r], bookId)
         == ActiveCount(records, bookId) - Lent(records[k], bookId) + Lent(r, bookId)
  {
    var n := |records|;
    var updated := records[k := r];
    if k == n - 1 {
      assert updated[..n - 1] == records[..n - 1];
    } else {
      ActiveCountUpdate(records[..n - 1], k, r, bookId);
      assert updated[..n - 1] == records[..n - 1][k := r];
    }
  }

  /** No active loan of a book exists exactly when its active count is zero. */
  lemma {:induction false} ActiveCountZero(records: seq<BorrowRecord>, bookId: int)
    ensures ActiveCount(records, bookId) == 0
        <==> forall j :: 0 <= j < |records| ==> Lent(records[j], bookId) == 0
  {
    var n := |records|;
    if n > 0 {
      var init := records[..n - 1];
      ActiveCountZero(init, bookId);
      assert forall j :: 0 <= j < n - 1 ==> init[j] == records[j];
    }
  }

  /** A user's open loan of a book is one of that book's copies out. */
  lemma ActiveLoanCounted(records: seq<BorrowRecord>, userId: int, bookId: int)
    ensures HasActiveLoan(records, userId, bookId) ==> ActiveCount(records, bookId) > 0
  {
    if HasActiveLoan(records, userId, bookId) {
      var j :| 0 <= j < |records| && records[j].userId == userId && records[j].bookId == bookId
                                  && IsActive(records[j]);
      ActiveCountZero(records, bookId);
      assert Lent(records[j], bookId) == 1;
    }
  }

  predicate HasBook(books: seq<Book>, id: int)
  {
    exists j | 0 <= j < |books| :: books[j].id == id
  }

  /** Book keys are unique and below the next key. */
  predicate BookKeys(books: seq<Book>, nextBookId: int)
  {
    && (forall i, j :: 0 <= i < j < |books| ==> books[i].id != books[j].id)
    && (forall i :: 0 <= i < |books| ==> books[i].id < nextBookId)
  }

  /** User keys, usernames and emails are unique; keys are below the next key. */
  predicate UserKeys(users: seq<User>, nextUserId: int)
  {
    && (forall i, j :: 0 <= i < j < |users| ==> users[i].id != users[j].id)
    && (forall i, j :: 0 <= i < j < |users| ==> users[i].username != users[j].username)
    && (forall i, j :: 0 <= i < j < |users| ==> users[i].email != users[j].email)
    && (forall i :: 0 <= i < |users| ==> users[i].id < nextUserId)
  }

  /** Record keys are unique and below the next key; every record points at
      a book key that was issued. */
  predicate RecordKeys(records: seq<BorrowRecord>, nextRecordId: int, nextBookId: int)
  {
    && (forall i, j :: 0 <= i < j < |records| ==> records[i].id != records[j].id)
    && (forall i :: 0 <= i < |records| ==> records[i].id < nextRecordId)
    && (forall i :: 0 <= i < |records| ==> records[i].bookId < nextBookId)
  }

  /** Every unreturned record points at a book that exists. */
  predicate LoansHaveBooks(books: seq<Book>, records: seq<BorrowRecord>)
  {
    forall i :: 0 <= i < |records| && IsActive(records[i]) ==> HasBook(books, records[i].bookId)
  }

  /** The integrity the database and the endpoints keep between them. */
  predicate WellFormed(s: Store)
  {
    && BookKeys(s.books, s.nextBookId)
    && UserKeys(s.users, s.nextUserId)
    && RecordKeys(s.records, s.nextRecordId, s.nextBookId)
    && LoansHaveBooks(s.books, s.records)
  }

  /** Two book tables with the same keys in the same rows. */
  predicate SameKeys(a: seq<Book>, b: seq<Book>)
  {
    |a| == |b| && forall j :: 0 <= j < |a| ==> a[j].id == b[j].id
  }

  /** Changing other columns of book rows keeps the key integrity. */
  lemma SameKeysKeep(a: seq<Book>, b: seq<Book>, records: seq<BorrowRecord>, nextBookId: int)
    requires SameKeys(a, b)
    ensures BookKeys(a, nextBookId) ==> BookKeys(b, nextBookId)
    ensures LoansHaveBooks(a, records) ==> LoansHaveBooks(b, records)
  {
    if LoansHaveBooks(a, records) {
      forall i | 0 <= i < |records| && IsActive(records[i]) ensures HasBook(b, records[i].bookId) {
        var j :| 0 <= j < |a| && a[j].id == records[i].bookId;
        assert b[j].id == records[i].bookId;
      }
    }
  }

  /** Adding book rows keeps every loan's book. */
  lemma LoansHaveBooksGrow(books: seq<Book>, b: Book, records: seq<BorrowRecord>)
    requires LoansHaveBooks(books, records)
    ensures LoansHaveBooks(books + [b], records)
  {
    forall i | 0 <= i < |records| && IsActive(records[i]) ensures HasBook(books + [b], records[i].bookId) {
      var j :| 0 <= j < |books| && books[j].id == records[i].bookId;
      assert (books + [b])[j] == books[j];
    }
  }

  /** Per book: copies on the shelf plus copies out on loan. */
  function Holdings(s: Store): (h: seq<int>)
    ensures |h| == |s.books|
  {
    seq(|s.books|, i requires 0 <= i < |s.books| =>
      s.books[i].availableCopies + ActiveCount(s.records, s.books[i].id))
  }

  /** The copy-count invariant: for every book the copies on the shelf are
      not negative and, together with the copies out on loan, make up the
      total. The source does not enforce it; borrow and return keep it. */
  predicate Accounted(s: Store)
  {
    forall i :: 0 <= i < |s.books| ==>
      && 0 <= s.books[i].availableCopies
      && s.books[i].availableCopies + ActiveCount(s.records, s.books[i].id) == s.books[i].totalCopies
  }

  /** Under the invariant every count lies between zero and the total. */
  lemma AccountedBounds(s: Store, i: nat)
    requires Accounted(s) && i < |s.books|
    ensures 0 <= s.books[i].availableCopies <= s.books[i].totalCopies
    ensures s.books[i].availableCopies == s.books[i].totalCopies - ActiveCount(s.records, s.books[i].id)
  {
  }

  /** Under the invariant a book is available exactly when fewer copies are
      out on loan than it has in total. */
  lemma AvailableIffCopiesLeft(s: Store, i: nat)
    requires Accounted(s) && i < |s.books|
    ensures IsAvailable(s.books[i]) <==> ActiveCount(s.records, s.books[i].id) < s.books[i].totalCopies
  {
  }

  /** The store as the application process sees it; each request is one
      atomic step over it. */
  class Library {
    var books: seq<Book>
    var users: seq<User>
    var records: seq<BorrowRecord>
    var nextBookId: int
    var nextUserId: int
    var nextRecordId: int

    function Snapshot(): (s: Store)
      reads this
    {
      Store(books, users, records, nextBookId, nextUserId, nextRecordId)
    }

    predicate Valid()
      reads this
    {
      WellFormed(Snapshot())
    }

    /** A freshly created database: empty tables, keys starting at 1. */
    constructor ()
      ensures Valid() && Accounted(Snapshot())
      ensures books == [] && users == [] && records == []
      ensures nextBookId == 1 && nextUserId == 1 && nextRecordId == 1
    {
      books, users, records := [], [], [];
      nextBookId, nextUserId, nextRecordId := 1, 1, 1;
    }
  }
}

=== FILE: django_views.dfy ===
/** The views of the older server over the same tables: home, search,
    borrow, return and the loan listing. `userId` is the logged-in user;
    `now` is the server clock at the request. A view's flash message is
    its only feedback besides a 404 page. */
module DjangoViews {
  import opened Models
  import opened Database
  import opened Search
  import Loans

  /** The page get_object_or_404 answers with. */
  const NotFound := HttpError(404, "Not Found")
  /** The response when the view itself fails (a loan whose book is gone). */
  const ServerError := HttpError(500, "Server Error")

  datatype Flash = Success(text: string) | Failure(text: string)

  const NotAvailableMessage := "This book is not available for borrowing"

  /** The home page: for a logged-in user, that user's unreturned records. */
  function Home(s: Store, userId: Option<int>): (r: Option<seq<BorrowRecord>>)
    ensures r.Some? <==> userId.Some?
    ensures r.Some? ==> forall x :: x in r.value <==> x in s.records && x.userId == userId.value && IsActive(x)
  {
    match userId
    case None => None
    case Some(u) => Some(Loans.ActiveOwnRecords(s.records, u))
  }

  /** The search page: every book for an empty query, otherwise the books
      with a title, author or genre containing the query, ignoring case. */
  function SearchBooks(s: Store, query: string): (r: seq<Book>)
    ensures query == [] ==> r == s.books
    ensures query != [] ==> forall b :: b in r <==> b in s.books && MatchesText(b, query)
    ensures query != [] ==> IsSubsequence(r, s.books)
  {
    if query == [] then s.books else FilterText(s.books, query)
  }

  /** The borrow view: no duplicate-loan check, only availability. */
  function BorrowStep(s: Store, userId: int, bookId: int, now: int): (r: Step<Flash>)
    ensures !HasBook(s.books, bookId) ==> r == Step(s, Err(NotFound))
    ensures r.result.Ok? <==> HasBook(s.books, bookId)
    ensures r.result.Ok? && r.result.value.Failure? ==> r.store == s
    ensures r.result.Ok? ==>
      && FindBook(s.books, bookId).Some?
      && var i := FindBook(s.books, bookId).value;
         && (r.result.value.Failure? <==> !IsAvailable(s.books[i]))
         && (r.result.value.Failure? ==> r.result.value.text == NotAvailableMessage)
         && (r.result.value.Success? ==>
              && r.result.value.text == "Successfully borrowed " + s.books[i].title
              && r.store == s.(books := s.books[i := s.books[i].(availableCopies := s.books[i].availableCopies - 1)],
                               records := s.records + [NewRecord(s.nextRecordId, userId, bookId, now)],
                               nextRecordId := s.nextRecordId + 1))
  {
    match FindBook(s.books, bookId)
    case None => Step(s, Err(NotFound))
    case Some(i) =>
      var book := s.books[i];
      if IsAvailable(book) then
        var rec := NewRecord(s.nextRecordId, userId, bookId, now);
        var book' := book.(availableCopies := book.availableCopies - 1);
        Step(s.(books := s.books[i := book'], records := s.records + [rec], nextRecordId := s.nextRecordId + 1),
             Ok(Success("Successfully borrowed " + book.title)))
      else Step(s, Ok(Failure(NotAvailableMessage)))
  }

  /** The return view: a record already returned is left alone, silently.
      The record is saved before its book is read, so a missing book leaves
      the record returned and the count untouched. */
  function ReturnStep(s: Store, userId: int, borrowId: int, now: int): (r: Step<Option<Flash>>)
    ensures FindOwnRecord(s.records, borrowId, userId).None? ==> r == Step(s, Err(NotFound))
    ensures FindOwnRecord(s.records, borrowId, userId).Some? ==>
      var k := FindOwnRecord(s.records, borrowId, userId).value;
      var done := s.records[k].(isReturned := true, returnDate := Some(now));
      && (s.records[k].isReturned ==> r == Step(s, Ok(None)))
      && (!s.records[k].isReturned ==>
           && r.store.records == s.records[k := done]
           && r.store.users == s.users
           && (!HasBook(s.books, s.records[k].bookId) ==> r == Step(s.(records := s.records[k := done]), Err(ServerError)))
           && (HasBook(s.books, s.records[k].bookId) ==>
                && FindBook(s.books, s.records[k].bookId).Some?
                && var i := FindBook(s.books, s.records[k].bookId).value;
                   && r.result == Ok(Some(Success("Successfully returned " + s.books[i].title)))
                   && r.store == s.(books := s.books[i := s.books[i].(availableCopies := s.books[i].availableCopies + 1)],
                                    records := s.records[k := done])))
  {
    match FindOwnRecord(s.records, borrowId, userId)
    case None => Step(s, Err(NotFound))
    case Some(k) =>
      var rec := s.records[k];
      if rec.isReturned then Step(s, Ok(None))
      else
        var saved := s.(records := s.records[k := rec.(isReturned := true, returnDate := Some(now))]);
        match FindBook(s.books, rec.bookId)
        case None => Step(saved, Err(ServerError))
        case Some(i) =>
          var book := s.books[i].(availableCopies := s.books[i].availableCopies + 1);
          Step(saved.(books := s.books[i := book]), Ok(Some(Success("Successfully returned " + s.books[i].title))))
  }

  /** The loan listing: all the user's records, unreturned first and newest
      first within each group, and whether any is unreturned. */
  function ViewBorrowedBooks(s: Store, userId: int): (r: (seq<BorrowRecord>, bool))
    ensures forall x :: x in r.0 <==> x in s.records && x.userId == userId
    ensures Loans.LoanOrdered(r.0)
    ensures multiset(r.0) == multiset(Loans.OwnRecords(s.records, userId))
    // the flag says whether the listing holds an unreturned record
    ensures r.1 <==> exists x :: x in r.0 && IsActive(x)
  {
    var own := Loans.OwnRecords(s.records, userId);
    var sorted := Loans.SortLoans(own);
    assert forall x :: x in sorted <==> x in multiset(sorted);
    assert forall x :: x in own <==> x in multiset(own);
    var hasActive := exists j | 0 <= j < |s.records| :: s.records[j].userId == userId && IsActive(s.records[j]);
    assert hasActive ==> exists x :: x in sorted && IsActive(x) by {
      if hasActive {
        var j :| 0 <= j < |s.records| && s.records[j].userId == userId && IsActive(s.records[j]);
        assert s.records[j] in sorted;
      }
    }
    (sorted, hasActive)
  }

  lemma BorrowKeepsWellFormed(s: Store, userId: int, bookId: int, now: int)
    requires WellFormed(s)
    ensures WellFormed(BorrowStep(s, userId, bookId, now).store)
  {
    var r := BorrowStep(s, userId, bookId, now);
    if r.result.Ok? && r.result.value.Success? {
      var i := FindBook(s.books, bookId).value;
      SameKeysKeep(s.books, r.store.books, r.store.records, s.nextBookId);
      assert LoansHaveBooks(s.books, r.store.records) by {
        assert HasBook(s.books, bookId) by { assert s.books[i].id == bookId; }
        forall k | 0 <= k < |r.store.records| && IsActive(r.store.records[k])
          ensures HasBook(s.books, r.store.records[k].bookId)
        {
          if k < |s.records| { assert r.store.records[k] == s.records[k]; }
        }
      }
    }
  }

  lemma ReturnKeepsWellFormed(s: Store, userId: int, borrowId: int, now: int)
    requires WellFormed(s)
    ensures WellFormed(ReturnStep(s, userId, borrowId, now).store)
  {
    var r := ReturnStep(s, userId, borrowId, now);
    if r.store != s {
      var k := FindOwnRecord(s.records, borrowId, userId).value;
      if HasBook(s.books, s.records[k].bookId) {
        SameKeysKeep(s.books, r.store.books, r.store.records, s.nextBookId);
      }
      assert LoansHaveBooks(s.books, r.store.records) by {
        forall j | 0 <= j < |r.store.records| && IsActive(r.store.records[j])
          ensures HasBook(s.books, r.store.records[j].bookId)
        {
          assert j != k;
        }
      }
    }
  }

  method BorrowBook(lib: Library, userId: int, bookId: int, now: int) returns (r: Result<Flash>)
    modifies lib
    ensures Step(lib.Snapshot(), r) == BorrowStep(old(lib.Snapshot()), userId, bookId, now)
    ensures old(lib.Valid()) ==> lib.Valid()
  {
    ghost var s := lib.Snapshot();
    if lib.Valid() {
      BorrowKeepsWellFormed(s, userId, bookId, now);
    }
    var found := FindBook(lib.books, bookId);
    if found.None? {
      return Err(NotFound);
    }
    var i := found.value;
    var book := lib.books[i];
    if IsAvailable(book) {
      var rec := NewRecord(lib.nextRecordId, userId, bookId, now);
      lib.records := lib.records + [rec];
      lib.nextRecordId := lib.nextRecordId + 1;
      lib.books := lib.books[i := book.(availableCopies := book.availableCopies - 1)];
      r := Ok(Success("Successfully borrowed " + book.title));
    } else {
      r := Ok(Failure(NotAvailableMessage));
    }
  }

  method ReturnBook(lib: Library, userId: int, borrowId: int, now: int) returns (r: Result<Option<Flash>>)
    modifies lib
    ensures Step(lib.Snapshot(), r) == ReturnStep(old(lib.Snapshot()), userId, borrowId, now)
    ensures old(lib.Valid()) ==> lib.Valid()
  {
    ghost var s := lib.Snapshot();
    if lib.Valid() {
      ReturnKeepsWellFormed(s, userId, borrowId, now);
    }
    var found := FindOwnRecord(lib.records, borrowId, userId);
    if found.None? {
      return Err(NotFound);
    }
    var k := found.value;
    var rec := lib.records[k];
    if rec.isReturned {
      return Ok(None);
    }
    lib.records := lib.records[k := rec.(isReturned := true, returnDate := Some(now))];
    var book := FindBook(lib.books, rec.bookId);
    if book.None? {
      return Err(ServerError);
    }
    var i := book.value;
    var title := lib.books[i].title;
    lib.books := lib.books[i := lib.books[i].(availableCopies := lib.books[i].availableCopies + 1)];
    r := Ok(Some(Success("Successfully returned " + title)));
    assert Step(lib.Snapshot(), r) == ReturnStep(s, userId, borrowId, now);
  }
}

=== FILE: ledger.dfy ===
/** Laws of the borrow ledger across requests: borrow and return move one
    copy between the shelf and the ledger, so the copy-count invariant is
    kept by them (not by the catalogue edits, which copy client values);
    a borrow is undone by its return; and the two servers differ exactly in
    the duplicate-loan check and in returning a returned record. */
module Ledger {
  import opened Models
  import opened Database
  import Api = BorrowEndpoints
  import Django = DjangoViews
  import Admin = AdminEndpoints
  import BookEndpoints
  import opened Search

  /** Appending one loan of `bookId` changes only that book's holdings. */
  lemma HoldingsAfterBorrow(s: Store, s': Store, i: nat, rec: BorrowRecord)
    requires BookKeys(s.books, s.nextBookId) && i < |s.books|
    requires rec.bookId == s.books[i].id && IsActive(rec)
    requires s'.records == s.records + [rec]
    requires s'.books == s.books[i := s.books[i].(availableCopies := s.books[i].availableCopies - 1)]
    ensures Holdings(s') == Holdings(s)
  {
    forall j | 0 <= j < |s.books| ensures Holdings(s')[j] == Holdings(s)[j] {
      ActiveCountAppend(s.records, rec, s.books[j].id);
    }
  }

  /** Marking loan `k` of the book in row `i` returned and putting the copy
      back changes no book's holdings. */
  lemma HoldingsAfterReturn(s: Store, s': Store, i: nat, k: nat, now: int)
    requires BookKeys(s.books, s.nextBookId) && i < |s.books| && k < |s.records|
    requires s.records[k].bookId == s.books[i].id && IsActive(s.records[k])
    requires s'.records == s.records[k := s.records[k].(isReturned := true, returnDate := Some(now))]
    requires s'.books == s.books[i := s.books[i].(availableCopies := s.books[i].availableCopies + 1)]
    ensures Holdings(s') == Holdings(s)
  {
    forall j | 0 <= j < |s.books| ensures Holdings(s')[j] == Holdings(s)[j] {
      ActiveCountUpdate(s.records, k, s'.records[k], s.books[j].id);
    }
  }

  /** Holdings plus non-negative shelves are the invariant. */
  lemma AccountedFromHoldings(s: Store, s': Store)
    requires Accounted(s) && Holdings(s') == Holdings(s)
    requires forall j :: 0 <= j < |s'.books| ==> s'.books[j].totalCopies == s.books[j].totalCopies
    requires forall j :: 0 <= j < |s'.books| ==> 0 <= s'.books[j].availableCopies
    ensures Accounted(s')
  {
    forall j | 0 <= j < |s'.books|
      ensures s'.books[j].availableCopies + ActiveCount(s'.records, s'.books[j].id) == s'.books[j].totalCopies
    {
      assert Holdings(s')[j] == Holdings(s)[j];
    }
  }

  /** An API borrow moves one copy from the shelf to the ledger: every
      book's copies on the shelf plus copies on loan stay the same. */
  lemma BorrowConserves(s: Store, caller: User, bookId: int, now: int)
    requires WellFormed(s)
    ensures Holdings(Api.BorrowStep(s, caller, bookId, now).store) == Holdings(s)
  {
    var r := Api.BorrowStep(s, caller, bookId, now);
    if r.result.Ok? {
      HoldingsAfterBorrow(s, r.store, FindBook(s.books, bookId).value, r.result.value);
    }
  }

  /** An API return moves one copy from the ledger back to the shelf. */
  lemma ReturnConserves(s: Store, caller: User, borrowId: int, now: int)
    requires WellFormed(s)
    ensures Holdings(Api.ReturnStep(s, caller, borrowId, now).store) == Holdings(s)
  {
    var r := Api.ReturnStep(s, caller, borrowId, now);
    if r.result.Ok? {
      var k := FindOwnRecord(s.records, borrowId, caller.id).value;
      HoldingsAfterReturn(s, r.store, FindBook(s.books, s.records[k].bookId).value, k, now);
    }
  }

  lemma BorrowKeepsAccounted(s: Store, caller: User, bookId: int, now: int)
    requires WellFormed(s) && Accounted(s)
    ensures Accounted(Api.BorrowStep(s, caller, bookId, now).store)
  {
    BorrowConserves(s, caller, bookId, now);
    AccountedFromHoldings(s, Api.BorrowStep(s, caller, bookId, now).store);
  }

  lemma ReturnKeepsAccounted(s: Store, caller: User, borrowId: int, now: int)
    requires WellFormed(s) && Accounted(s)
    ensures Accounted(Api.ReturnStep(s, caller, borrowId, now).store)
  {
    ReturnConserves(s, caller, borrowId, now);
    AccountedFromHoldings(s, Api.ReturnStep(s, caller, borrowId, now).store);
  }

  /** The older server's borrow moves one copy too. */
  lemma DjangoBorrowConserves(s: Store, userId: int, bookId: int, now: int)
    requires WellFormed(s)
    ensures Holdings(Django.BorrowStep(s, userId, bookId, now).store) == Holdings(s)
  {
    var r := Django.BorrowStep(s, userId, bookId, now);
    if r.result.Ok? && r.result.value.Success? {
      HoldingsAfterBorrow(s, r.store, FindBook(s.books, bookId).value, NewRecord(s.nextRecordId, userId, bookId, now));
    }
  }

  /** The older server's return conserves holdings; when the loan's book is
      gone the record is closed but no listed book is affected. */
  lemma DjangoReturnConserves(s: Store, userId: int, borrowId: int, now: int)
    requires WellFormed(s)
    ensures Holdings(Django.ReturnStep(s, userId, borrowId, now).store) == Holdings(s)
  {
    var r := Django.ReturnStep(s, userId, borrowId, now);
    if r.store != s {
      var k := FindOwnRecord(s.records, borrowId, userId).value;
      var rec := s.records[k];
      assert HasBook(s.books, rec.bookId);
      HoldingsAfterReturn(s, r.store, FindBook(s.books, rec.bookId).value, k, now);
    }
  }

  lemma DjangoBorrowKeepsAccounted(s: Store, userId: int, bookId: int, now: int)
    requires WellFormed(s) && Accounted(s)
    ensures Accounted(Django.BorrowStep(s, userId, bookId, now).store)
  {
    DjangoBorrowConserves(s, userId, bookId, now);
    AccountedFromHoldings(s, Django.BorrowStep(s, userId, bookId, now).store);
  }

  lemma DjangoReturnKeepsAccounted(s: Store, userId: int, borrowId: int, now: int)
    requires WellFormed(s) && Accounted(s)
    ensures Accounted(Django.ReturnStep(s, userId, borrowId, now).store)
  {
    DjangoReturnConserves(s, userId, borrowId, now);
    AccountedFromHoldings(s, Django.ReturnStep(s, userId, borrowId, now).store);
  }

  /** Returning the record a borrow just created succeeds and restores the
      catalogue exactly; the ledger keeps the record, now returned. */
  lemma BorrowThenReturn(s: Store, caller: User, bookId: int, t1: int, t2: int)
    requires WellFormed(s)
    requires Api.BorrowStep(s, caller, bookId, t1).result.Ok?
    ensures var b := Api.BorrowStep(s, caller, bookId, t1);
            var rec := b.result.value;
            var r := Api.ReturnStep(b.store, caller, rec.id, t2);
            && r.result == Ok(rec.(isReturned := true, returnDate := Some(t2)))
            && r.store.books == s.books
            && r.store.records == s.records + [rec.(isReturned := true, returnDate := Some(t2))]
  {
    var b := Api.BorrowStep(s, caller, bookId, t1);
    var rec := b.result.value;
    var s1 := b.store;
    var n := |s.records|;
    assert s1.records[n] == rec;
    assert FindOwnRecord(s1.records, rec.id, caller.id) == Some(n);
    var i := FindBook(s.books, bookId).value;
    assert FindBook(s1.books, bookId) == Some(i);
  }

  /** Rewriting the record a lookup found, keeping its id and owner, does
      not move the lookup. */
  lemma FindOwnAfterUpdate(records: seq<BorrowRecord>, k: nat, rec: BorrowRecord, id: int, userId: int)
    requires FindOwnRecord(records, id, userId) == Some(k)
    requires rec.id == id && rec.userId == userId
    ensures FindOwnRecord(records[k := rec], id, userId) == Some(k)
  {
    var updated := records[k := rec];
    assert updated[k].id == id && updated[k].userId == userId;
    assert forall j :: 0 <= j < k ==> updated[j] == records[j];
  }

  /** An API return of an already-returned record fails; so a second
      return of the same loan is refused and changes nothing. */
  lemma ReturnTwiceFails(s: Store, caller: User, borrowId: int, t1: int, t2: int)
    requires Api.ReturnStep(s, caller, borrowId, t1).result.Ok?
    ensures var s1 := Api.ReturnStep(s, caller, borrowId, t1).store;
            Api.ReturnStep(s1, caller, borrowId, t2) == Step(s1, Err(Api.AlreadyReturned))
  {
    var s1 := Api.ReturnStep(s, caller, borrowId, t1).store;
    var k := FindOwnRecord(s.records, borrowId, caller.id).value;
    FindOwnAfterUpdate(s.records, k, s1.records[k], borrowId, caller.id);
  }

  /** The older server's return is idempotent: a second return of the same
      record, at any time, leaves the store as the first one left it. */
  lemma DjangoReturnIdempotent(s: Store, userId: int, borrowId: int, t1: int, t2: int)
    ensures var s1 := Django.ReturnStep(s, userId, borrowId, t1).store;
            Django.ReturnStep(s1, userId, borrowId, t2).store == s1
  {
    var s1 := Django.ReturnStep(s, userId, borrowId, t1).store;
    if s1 != s {
      var k := FindOwnRecord(s.records, borrowId, userId).value;
      assert FindOwnRecord(s1.records, borrowId, userId) == Some(k);
    }
  }

  /** With a copy on the shelf and an unreturned loan of the same book
      already held by the caller, the API server refuses while the older
      server lends a second copy. */
  lemma DuplicateLoanContrast(s: Store, caller: User, bookId: int, now: int)
    requires HasBook(s.books, bookId) && IsAvailable(s.books[FindBook(s.books, bookId).value])
    requires HasActiveLoan(s.records, caller.id, bookId)
    ensures Api.BorrowStep(s, caller, bookId, now) == Step(s, Err(Api.AlreadyBorrowed))
    ensures var d := Django.BorrowStep(s, caller.id, bookId, now);
            var n := |s.records|;
            && d.result.Ok? && d.result.value.Success?
            && |d.store.records| == n + 1
            // the new last record is an open loan of the book by the caller ...
            && d.store.records[n].userId == caller.id && d.store.records[n].bookId == bookId
            && IsActive(d.store.records[n])
            // ... besides the one already held, so the caller now holds two
            && exists j | 0 <= j < n :: && d.store.records[j].userId == caller.id
                                        && d.store.records[j].bookId == bookId
                                        && IsActive(d.store.records[j])
  {
    var d := Django.BorrowStep(s, caller.id, bookId, now);
    var j :| 0 <= j < |s.records| && s.records[j].userId == caller.id && s.records[j].bookId == bookId
                                  && IsActive(s.records[j]);
    assert d.store.records[j] == s.records[j];
  }

  /** For a record of the caller that is already returned, the API server
      answers 400 and the older server silently does nothing. */
  lemma ReturnedRecordContrast(s: Store, caller: User, borrowId: int, now: int)
    requires FindOwnRecord(s.records, borrowId, caller.id).Some?
    requires s.records[FindOwnRecord(s.records, borrowId, caller.id).value].isReturned
    ensures Api.ReturnStep(s, caller, borrowId, now) == Step(s, Err(Api.AlreadyReturned))
    ensures Django.ReturnStep(s, caller.id, borrowId, now) == Step(s, Ok(None))
  {
  }

  /** In a well-formed store every unreturned loan has its book, so the
      API return never reaches its internal failure. */
  lemma ReturnNeverFailsInternally(s: Store, caller: User, borrowId: int, now: int)
    requires WellFormed(s)
    ensures Api.ReturnStep(s, caller, borrowId, now).result != Err(Api.InternalError)
  {
    match FindOwnRecord(s.records, borrowId, caller.id)
    case None =>
    case Some(k) =>
      if IsActive(s.records[k]) {
        var j :| 0 <= j < |s.books| && s.books[j].id == s.records[k].bookId;
      }
  }

  /** Toggling the admin flag of the same user twice restores the store. */
  lemma ToggleTwiceIsIdentity(s: Store, caller: User, id: int)
    requires caller.isAdmin
    ensures Admin.ToggleAdminStep(Admin.ToggleAdminStep(s, caller, id).store, caller, id).store == s
  {
    var s1 := Admin.ToggleAdminStep(s, caller, id).store;
    if s1 != s {
      var i := FindUser(s.users, id).value;
      assert FindUser(s1.users, id) == Some(i);
      assert s1.users[i := s.users[i]] == s.users;
    }
  }

  /** A created book keeps the invariant when it arrives with all its
      copies on the shelf; no loan can point at its fresh key. */
  lemma CreateBookKeepsAccounted(s: Store, input: BookInput)
    requires WellFormed(s) && Accounted(s)
    requires 0 <= input.availableCopies == input.totalCopies
    ensures Accounted(BookEndpoints.CreateBookStep(s, input).store)
  {
    var s' := BookEndpoints.CreateBookStep(s, input).store;
    ActiveCountZero(s.records, s.nextBookId);
    forall j | 0 <= j < |s.records| ensures Lent(s.records[j], s.nextBookId) == 0 {
      assert s.records[j].bookId < s.nextBookId;
    }
    forall j | 0 <= j < |s'.books|
      ensures 0 <= s'.books[j].availableCopies
      ensures s'.books[j].availableCopies + ActiveCount(s'.records, s'.books[j].id) == s'.books[j].totalCopies
    {
      if j < |s.books| {
        assert s'.books[j] == s.books[j];
      }
    }
  }

  /** An update keeps the invariant when the new counts agree with the
      loans out; nothing in the endpoint checks that they do. */
  lemma UpdateBookKeepsAccounted(s: Store, caller: User, id: int, input: BookInput)
    requires Accounted(s)
    requires 0 <= input.availableCopies
    requires input.availableCopies + ActiveCount(s.records, id) == input.totalCopies
    ensures Accounted(Admin.UpdateBookStep(s, caller, id, input).store)
  {
  }

  /** The update endpoint stores whatever counts it is sent: one shelf copy
      more than the total is accepted. */
  lemma UpdateBookAcceptsAnyCounts(s: Store, caller: User, id: int, t: string)
    requires caller.isAdmin && HasBook(s.books, id)
    ensures var input := BookInput(t, t, t, 2, 1);
            var r := Admin.UpdateBookStep(s, caller, id, input);
            && r.result.Ok?
            && r.result.value.availableCopies > r.result.value.totalCopies
            && !Accounted(r.store)
  {
    var input := BookInput(t, t, t, 2, 1);
    var r := Admin.UpdateBookStep(s, caller, id, input);
    var i := FindBook(s.books, id).value;
    assert r.store.books[i] == r.result.value;
  }

  /** Deleting a book keeps the invariant for the books that remain. */
  lemma DeleteBookKeepsAccounted(s: Store, caller: User, id: int)
    requires Accounted(s)
    ensures Accounted(Admin.DeleteBookStep(s, caller, id).store)
  {
    var r := Admin.DeleteBookStep(s, caller, id);
    if r.result.Ok? {
      var i := FindBook(s.books, id).value;
      forall j | 0 <= j < |r.store.books|
        ensures 0 <= r.store.books[j].availableCopies
        ensures r.store.books[j].availableCopies + ActiveCount(s.records, r.store.books[j].id) == r.store.books[j].totalCopies
      {
        assert r.store.books[j] == s.books[if j < i then j else j + 1];
      }
    }
  }

  /** Requests are serialised, so of two borrows of a book's last shelf
      copy the first succeeds and the second is refused as unavailable. */
  lemma LastCopyLendsOnce(s: Store, a: User, b: User, bookId: int, t1: int, t2: int)
    requires HasBook(s.books, bookId)
    requires s.books[FindBook(s.books, bookId).value].availableCopies == 1
    requires !HasActiveLoan(s.records, a.id, bookId)
    ensures var r1 := Api.BorrowStep(s, a, bookId, t1);
            && r1.result.Ok?
            && Api.BorrowStep(r1.store, b, bookId, t2) == Step(r1.store, Err(Api.BookNotAvailable))
  {
    var r1 := Api.BorrowStep(s, a, bookId, t1);
    var i := FindBook(s.books, bookId).value;
    assert FindBook(r1.store.books, bookId) == Some(i) by {
      assert r1.store.books[i].id == bookId;
      assert forall j :: 0 <= j < i ==> r1.store.books[j] == s.books[j];
    }
  }

  /** A book with two copies: A and B borrow it, C is refused, and when A
      returns one copy is back on the shelf. */
  lemma TwoCopiesScenario(book: Book, a: User, b: User, c: User, t: int)
    requires book.availableCopies == 2 && book.totalCopies == 2
    requires a.id != b.id
    ensures var s0 := Store([book], [], [], book.id + 1, 1, 1);
            var r1 := Api.BorrowStep(s0, a, book.id, t);
            var r2 := Api.BorrowStep(r1.store, b, book.id, t);
            var r3 := Api.BorrowStep(r2.store, c, book.id, t);
            var r4 := Api.ReturnStep(r3.store, a, r1.result.value.id, t);
            && r1.result.Ok? && !r1.result.value.isReturned && r1.store.books[0].availableCopies == 1
            && r2.result.Ok? && r2.store.books[0].availableCopies == 0
            && r3 == Step(r2.store, Err(Api.BookNotAvailable))
            && r4.result.Ok? && r4.store.books[0].availableCopies == 1
  {
    var s0 := Store([book], [], [], book.id + 1, 1, 1);
    var r1 := Api.BorrowStep(s0, a, book.id, t);
    assert FindBook(s0.books, book.id) == Some(0);
    assert FindBook(r1.store.books, book.id) == Some(0);
    var r2 := Api.BorrowStep(r1.store, b, book.id, t);
    assert r1.store.records == [r1.result.value];
    assert !HasActiveLoan(r1.store.records, b.id, book.id);
    assert FindBook(r2.store.books, book.id) == Some(0);
    var r3 := Api.BorrowStep(r2.store, c, book.id, t);
    var rec := r1.result.value;
    assert r3.store.records == [rec, r2.result.value];
    assert FindOwnRecord(r3.store.records, rec.id, a.id) == Some(0);
    assert FindBook(r3.store.books, rec.bookId) == Some(0);
  }

  /** Without `%` or `_` in the query the two servers' searches return the
      same books in the same order. */
  lemma SearchesAgree(s: Store, q: string)
    requires WildcardFree(q)
    ensures BookEndpoints.GetBooks(s, Some(q)) == Django.SearchBooks(s, q)
  {
    if q != [] {
      FiltersAgree(s.books, q);
    }
  }

  /** With them they differ: `_` is a wildcard under ilike, so the API
      server finds a book titled "a", which the older server's literal
      search does not. */
  lemma UnderscoreSearchesDiffer(s: Store, b: Book)
    requires s.books == [b] && b.title == "a" && b.author == "a" && b.genre == "a"
    ensures BookEndpoints.GetBooks(s, Some("_")) == [b]
    ensures Django.SearchBooks(s, "_") == []
  {
    assert LowerStr("%_%") == "%_%";
    assert LowerStr("a") == "a";
    assert LikeMatch("", "");
    assert LikeMatch("%", "");
    assert LikeMatch("_%", "a");
    assert MatchesPattern(b, "%_%");
    assert "%" + "_" + "%" == "%_%";
    assert s.books[1..] == [];
    assert FilterPattern(s.books, "%_%") == [b];
    assert LowerStr("_") == "_";
    assert !OccursAt("_", "a", 0);
    assert !MatchesText(b, "_");
  }

  /** Deleting a book whose loans are all returned is allowed, and it
      leaves those returned records without their book: from then on the
      owner's loan listing and the admin's listing of all loans fail. */
  lemma DeleteBreaksListings(s: Store, admin: User, user: User, id: int)
    requires WellFormed(s) && admin.isAdmin
    requires HasBook(s.books, id) && ActiveCount(s.records, id) == 0
    requires exists j | 0 <= j < |s.records| :: s.records[j].userId == user.id && s.records[j].bookId == id
    ensures var d := Admin.DeleteBookStep(s, admin, id);
            && d.result.Ok?
            && Api.GetBorrowedBooks(d.store, user) == Err(Api.InternalError)
            && Admin.GetAllBorrows(d.store, admin) == Err(Api.InternalError)
  {
    var d := Admin.DeleteBookStep(s, admin, id);
    var j :| 0 <= j < |s.records| && s.records[j].userId == user.id && s.records[j].bookId == id;
    assert d.store.records[j] == s.records[j];
    assert !HasBook(d.store.books, d.store.records[j].bookId);
  }
}

=== FILE: loans.dfy ===
/** Selecting and ordering borrow records for the loan listings. */
module Loans {
  import opened Models

  /** The listing order: unreturned records before returned ones, and
      within each group the later borrow date first. Records with the same
      key may come in either order. */
  predicate ComesBefore(a: BorrowRecord, b: BorrowRecord)
  {
    || (!a.isReturned && b.isReturned)
    || (a.isReturned == b.isReturned && a.borrowDate >= b.borrowDate)
  }

  predicate LoanOrdered(s: seq<BorrowRecord>)
  {
    forall i, j :: 0 <= i < j < |s| ==> ComesBefore(s[i], s[j])
  }

  /** The records of one user, in store order. */
  function OwnRecords(records: seq<BorrowRecord>, userId: int): (r: seq<BorrowRecord>)
    ensures forall x :: x in r <==> x in records && x.userId == userId
    ensures |r| <= |records|
  {
    if |records| == 0 then []
    else (if records[0].userId == userId then [records[0]] else []) + OwnRecords(records[1..], userId)
  }

  /** The unreturned records of one user, in store order. */
  function ActiveOwnRecords(records: seq<BorrowRecord>, userId: int): (r: seq<BorrowRecord>)
    ensures forall x :: x in r <==> x in records && x.userId == userId && IsActive(x)
    ensures |r| <= |records|
  {
    if |records| == 0 then []
    else (if records[0].userId == userId && IsActive(records[0]) then [records[0]] else [])
         + ActiveOwnRecords(records[1..], userId)
  }

  /** Either of two records may be listed first. */
  lemma ComesBeforeTotal(a: BorrowRecord, b: BorrowRecord)
    ensures ComesBefore(a, b) || ComesBefore(b, a)
  {
  }

  /** A record that comes before every element of an ordered listing can
      head it. */
  lemma PrependOrdered(h: BorrowRecord, t: seq<BorrowRecord>)
    requires LoanOrdered(t)
    requires forall j :: 0 <= j < |t| ==> ComesBefore(h, t[j])
    ensures LoanOrdered([h] + t)
  {
    var r := [h] + t;
    forall i, j | 0 <= i < j < |r| ensures ComesBefore(r[i], r[j]) {
      if i == 0 {
        assert r[j] == t[j - 1];
      } else {
        assert r[i] == t[i - 1] && r[j] == t[j - 1];
      }
    }
  }

  /** The head of an ordered listing comes before everything in the
      listing's tail with `x` added, when it comes before `x` too. */
  lemma HeadPrecedes(h: BorrowRecord, x: BorrowRecord, s: seq<BorrowRecord>, t: seq<BorrowRecord>)
    requires LoanOrdered([h] + s)
    requires ComesBefore(h, x)
    requires multiset(t) == multiset(s) + multiset{x}
    ensures forall j :: 0 <= j < |t| ==> ComesBefore(h, t[j])
  {
    forall j | 0 <= j < |t| ensures ComesBefore(h, t[j]) {
      assert t[j] in multiset(t);
      if t[j] != x {
        assert t[j] in multiset(s);
        var k :| 0 <= k < |s| && s[k] == t[j];
        assert ([h] + s)[0] == h && ([h] + s)[k + 1] == s[k];
        assert ComesBefore(([h] + s)[0], ([h] + s)[k + 1]);
      }
    }
  }

  /** The listing order is transitive, so sorting by it is well defined. */
  lemma ComesBeforeTransitive(a: BorrowRecord, b: BorrowRecord, c: BorrowRecord)
    requires ComesBefore(a, b) && ComesBefore(b, c)
    ensures ComesBefore(a, c)
  {
  }

  /** Puts `x` into an ordered listing. */
  function Insert(x: BorrowRecord, s: seq<BorrowRecord>): (r: seq<BorrowRecord>)
    requires LoanOrdered(s)
    ensures LoanOrdered(r)
    ensures multiset(r) == multiset(s) + multiset{x}
  {
    if |s| == 0 then [x]
    else if ComesBefore(x, s[0]) then
      assert forall j :: 0 <= j < |s| ==> ComesBefore(x, s[j]);
      PrependOrdered(x, s);
      [x] + s
    else
      assert s == [s[0]] + s[1..];
      var t := Insert(x, s[1..]);
      ComesBeforeTotal(x, s[0]);
      HeadPrecedes(s[0], x, s[1..], t);
      PrependOrdered(s[0], t);
      [s[0]] + t
  }

  /** Orders a listing: unreturned first, newest first within each group. */
  function SortLoans(s: seq<BorrowRecord>): (r: seq<BorrowRecord>)
    ensures LoanOrdered(r)
    ensures multiset(r) == multiset(s)
  {
    if |s| == 0 then []
    else
      assert s == [s[0]] + s[1..];
      Insert(s[0], SortLoans(s[1..]))
  }

  /** In an ordered listing no returned record precedes an unreturned one. */
  lemma ActiveFirst(s: seq<BorrowRecord>, i: nat, j: nat)
    requires LoanOrdered(s) && i < j < |s|
    ensures IsActive(s[j]) ==> IsActive(s[i])
    ensures s[i].isReturned == s[j].isReturned ==> s[i].borrowDate >= s[j].borrowDate
  {
  }
}

=== FILE: models.dfy ===
/** Rows of the three tables (users, books, borrow_records), the error
    shape the endpoints raise, and the per-row helpers and column defaults.
    Timestamps are whole seconds since an arbitrary epoch. */
module Models {

  datatype Option<T> = None | Some(value: T)

  /** An HTTP error as the endpoints raise it: status code plus detail text. */
  datatype HttpError = HttpError(status: int, detail: string)

  datatype Result<T> = Ok(value: T) | Err(error: HttpError)

  /** Raised by every lookup of a book id that has no row. */
  const BookNotFound := HttpError(404, "Book not found")

  datatype User = User(
    id: int,
    username: string,
    email: string,
    hashedPassword: string,
    isActive: bool,
    isAdmin: bool)

  datatype Book = Book(
    id: int,
    title: string,
    author: string,
    genre: string,
    availableCopies: int,
    totalCopies: int)

  datatype BorrowRecord = BorrowRecord(
    id: int,
    userId: int,
    bookId: int,
    borrowDate: int,
    returnDate: Option<int>,
    isReturned: bool)

  const SecondsPerDay: int := 86400
  /** The loan period, in days. */
  const LoanDays: int := 14

  /** A book can be lent while at least one copy is on the shelf. */
  predicate IsAvailable(b: Book)
  {
    b.availableCopies > 0
  }

  /** A loan is active until it is returned. */
  predicate IsActive(r: BorrowRecord)
  {
    !r.isReturned
  }

  /** The due date: the borrow date plus the loan period. */
  function DueDate(r: BorrowRecord): (due: int)
    ensures due > r.borrowDate
    ensures due - r.borrowDate == LoanDays * SecondsPerDay
  {
    r.borrowDate + LoanDays * SecondsPerDay
  }

  /** A book row built with the column defaults for its copy counts. */
  function NewBook(id: int, title: string, author: string, genre: string): (b: Book)
    ensures b.id == id && b.title == title && b.author == author && b.genre == genre
    ensures IsAvailable(b) && b.availableCopies == b.totalCopies == 1
  {
    Book(id, title, author, genre, 1, 1)
  }

  /** A user row built with the column defaults for its flags. */
  function NewUser(id: int, username: string, email: string, hashedPassword: string): (u: User)
    ensures u.id == id && u.username == username && u.email == email
    ensures u.hashedPassword == hashedPassword
    ensures u.isActive && !u.isAdmin
  {
    User(id, username, email, hashedPassword, true, false)
  }

  /** A borrow record built with the column defaults: borrowed now, not returned. */
  function NewRecord(id: int, userId: int, bookId: int, now: int): (r: BorrowRecord)
    ensures r.id == id && r.userId == userId && r.bookId == bookId
    ensures r.borrowDate == now && DueDate(r) == now + LoanDays * SecondsPerDay
    ensures IsActive(r) && r.returnDate == None
  {
    BorrowRecord(id, userId, bookId, now, None, false)
  }
}

=== FILE: search.dfy ===
/** Text matching for the catalogue search. Both servers run on SQLite,
    whose case folding covers the ASCII letters only. The API server uses
    `ilike` with the pattern `%query%`, a LIKE match in which `%` and `_` in
    the query act as wildcards; the older server uses `icontains`, which
    escapes them and so looks for the query literally. */
module Search {
  import opened Models

  /** ASCII lower-casing, as SQLite's lower() and LIKE fold case. */
  function Lower(c: char): char
  {
    if 'A' <= c <= 'Z' then (c as int + 32) as char else c
  }

  function LowerStr(s: string): (r: string)
    ensures |r| == |s|
    ensures forall i :: 0 <= i < |s| ==> r[i] == Lower(s[i])
  {
    seq(|s|, i requires 0 <= i < |s| => Lower(s[i]))
  }

  /** `q` occurs in `t` starting at position `k`. */
  predicate OccursAt(q: string, t: string, k: int)
  {
    0 <= k <= |t| - |q| && t[k..k + |q|] == q
  }

  predicate IsSubstring(q: string, t: string)
  {
    exists k | 0 <= k <= |t| - |q| :: OccursAt(q, t, k)
  }

  /** `t` contains `q`, ignoring ASCII case. */
  predicate ContainsIgnoringCase(t: string, q: string)
  {
    IsSubstring(LowerStr(q), LowerStr(t))
  }

  /** SQL LIKE: `%` matches any run of characters, `_` any one character,
      and every other character itself. */
  function LikeMatch(p: string, t: string): bool
    decreases |p| + |t|
  {
    if |p| == 0 then |t| == 0
    else if p[0] == '%' then LikeMatch(p[1..], t) || (|t| > 0 && LikeMatch(p, t[1..]))
    else |t| > 0 && (p[0] == '_' || p[0] == t[0]) && LikeMatch(p[1..], t[1..])
  }

  /** `lower(t) LIKE lower(pattern)`, what `ilike` becomes on SQLite. */
  predicate ILike(t: string, pattern: string)
  {
    LikeMatch(LowerStr(pattern), LowerStr(t))
  }

  predicate WildcardFree(q: string)
  {
    forall i :: 0 <= i < |q| ==> q[i] != '%' && q[i] != '_'
  }

  /** `r` is `s` with some elements left out and the rest in order. */
  predicate IsSubsequence<T(==)>(r: seq<T>, s: seq<T>)
    decreases |s|
  {
    || |r| == 0
    || (|s| > 0 && ((r[0] == s[0] && IsSubsequence(r[1..], s[1..])) || IsSubsequence(r, s[1..])))
  }

  /** A lone `%` matches every text. */
  lemma {:induction false} LikeAnyText(t: string)
    ensures LikeMatch("%", t)
  {
    if |t| > 0 {
      LikeAnyText(t[1..]);
    }
  }

  /** A wildcard-free text followed by `%` matches exactly the texts it begins. */
  lemma {:induction false} LikePrefix(q: string, t: string)
    requires WildcardFree(q)
    ensures LikeMatch(q + "%", t) <==> |q| <= |t| && t[..|q|] == q
  {
    if |q| == 0 {
      assert q + "%" == "%";
      LikeAnyText(t);
    } else {
      var p := q + "%";
      assert p[0] == q[0] && p[1..] == q[1..] + "%";
      if |t| > 0 {
        LikePrefix(q[1..], t[1..]);
        if |q| <= |t| && t[..|q|] == q {
          assert t[1..][..|q| - 1] == q[1..];
        }
        if |q| - 1 <= |t| - 1 && t[1..][..|q| - 1] == q[1..] && t[0] == q[0] {
          assert t[..|q|] == [t[0]] + t[1..][..|q| - 1];
          assert q == [q[0]] + q[1..];
        }
      }
    }
  }

  /** A leading `%` lets the rest of the pattern match any suffix. */
  lemma {:induction false} LikeLeadingAny(p: string, t: string)
    ensures LikeMatch("%" + p, t) <==> exists k | 0 <= k <= |t| :: LikeMatch(p, t[k..])
  {
    var pp := "%" + p;
    assert pp[0] == '%' && pp[1..] == p;
    assert t[0..] == t;
    if |t| > 0 {
      LikeLeadingAny(p, t[1..]);
      if LikeMatch(pp, t[1..]) {
        var k :| 0 <= k <= |t| - 1 && LikeMatch(p, t[1..][k..]);
        assert t[1..][k..] == t[k + 1..];
      }
      if exists k | 0 <= k <= |t| :: LikeMatch(p, t[k..]) {
        var k :| 0 <= k <= |t| && LikeMatch(p, t[k..]);
        if k > 0 {
          assert t[1..][k - 1..] == t[k..];
        }
      }
    }
  }

  /** For a wildcard-free query, `%query%` matches exactly the texts that
      contain the query. */
  lemma LikeContains(q: string, t: string)
    requires WildcardFree(q)
    ensures LikeMatch("%" + q + "%", t) <==> IsSubstring(q, t)
  {
    assert "%" + q + "%" == "%" + (q + "%");
    LikeLeadingAny(q + "%", t);
    if LikeMatch("%" + q + "%", t) {
      var k :| 0 <= k <= |t| && LikeMatch(q + "%", t[k..]);
      LikePrefix(q, t[k..]);
      assert t[k..][..|q|] == t[k..k + |q|];
      assert OccursAt(q, t, k);
    }
    if IsSubstring(q, t) {
      var k :| 0 <= k <= |t| - |q| && OccursAt(q, t, k);
      LikePrefix(q, t[k..]);
      assert t[k..][..|q|] == t[k..k + |q|];
    }
  }

  /** The same, ignoring ASCII case on both sides. */
  lemma ILikeContains(q: string, t: string)
    requires WildcardFree(q)
    ensures ILike(t, "%" + q + "%") <==> ContainsIgnoringCase(t, q)
  {
    assert LowerStr("%" + q + "%") == "%" + LowerStr(q) + "%";
    LikeContains(LowerStr(q), LowerStr(t));
  }

  /** The three searchable columns of a book match `pattern` under ilike. */
  predicate MatchesPattern(b: Book, pattern: string)
  {
    ILike(b.title, pattern) || ILike(b.author, pattern) || ILike(b.genre, pattern)
  }

  /** One of the three searchable columns of a book contains `q`, ignoring case. */
  predicate MatchesText(b: Book, q: string)
  {
    ContainsIgnoringCase(b.title, q) || ContainsIgnoringCase(b.author, q) || ContainsIgnoringCase(b.genre, q)
  }

  /** The books matching `pattern`, in store order. */
  function FilterPattern(books: seq<Book>, pattern: string): (r: seq<Book>)
    ensures forall b :: b in r <==> b in books && MatchesPattern(b, pattern)
    ensures IsSubsequence(r, books)
  {
    if |books| == 0 then []
    else
      var rest := FilterPattern(books[1..], pattern);
      if MatchesPattern(books[0], pattern) then
        assert ([books[0]] + rest)[1..] == rest;
        [books[0]] + rest
      else rest
  }

  /** The books with a column containing `q`, in store order. */
  function FilterText(books: seq<Book>, q: string): (r: seq<Book>)
    ensures forall b :: b in r <==> b in books && MatchesText(b, q)
    ensures IsSubsequence(r, books)
  {
    if |books| == 0 then []
    else
      var rest := FilterText(books[1..], q);
      if MatchesText(books[0], q) then
        assert ([books[0]] + rest)[1..] == rest;
        [books[0]] + rest
      else rest
  }

  /** For a wildcard-free query both servers' filters select the same books
      in the same order. */
  lemma {:induction false} FiltersAgree(books: seq<Book>, q: string)
    requires WildcardFree(q)
    ensures FilterPattern(books, "%" + q + "%") == FilterText(books, q)
  {
    if |books| > 0 {
      var b := books[0];
      ILikeContains(q, b.title);
      ILikeContains(q, b.author);
      ILikeContains(q, b.genre);
      FiltersAgree(books[1..], q);
    }
  }
}
